=== FILE: README.md ===
# spidey in Dafny

This is a model of the core of `spidey`, a small HTTP server written in C. It covers:

- how the server parses a request (request line, query string, headers);
- the helpers of `utils.c` (status strings, whitespace skipping, root containment, `mime.types` lookup);
- the command-line handling of `spidey.c` (option scan, global defaults, choice of server);
- the three response handlers of `handler.c` (directory listing, file, error).

The C string primitives the code relies on are written as functions over `string`:

- strtok(3) returns index spans (`Text.Strtok`, `Text.Resume`).
- The `chomp` macro strips the trailing run of CR and LF (`Text.Chomp`).
- Repeated fgets(3) splits a stream into lines (`Text.ReadLines`).
- fputs(3) writes a buffer up to its first NUL (`Text.Fputs`).

Everything the code gets from the operating system is passed in as a parameter:

- a connection is the sequence of lines fgets returns from it;
- `realpath` is a function from a path to `Option<string>`;
- a directory is the sequence of names readdir enumerates, or None when opendir fails;
- a file is its contents, or None when it cannot be opened;
- `mime.types` is its lines, or None when it cannot be opened.

A C NULL pointer is `None`. An `HTTPStatus` is a `nat` numbered in the order of the status-string table: 0 = 200, 1 = 400, 2 = 404, 3 = 500, 4 = 418.

Modules, one per file:

- `Base` (base.dfy): `Option`, `Result`.
- `Text` (text.dfy): strtok, chomp, fgets line splitting.
- `Utils` (utils.dfy): utils.c.
- `Requests` (request.dfy): request.c.
- `Options` (options.dfy): spidey.c.
- `Handler` (handler.dfy): handler.c.

`spidey.h` is not part of this model. Its macros are taken as follows:

- `WHITESPACE` is `" \t\n"`.
- `chomp` removes trailing `\r` and `\n` characters.
- `streq` is string equality.
- `HTTPStatus` numbers statuses in table order.

Where the code and its documentation disagree, the model follows the code. Where the code is evidently wrong, the model gives both the code as written and the corrected definition; see "## Findings". Behaviours of the code worth noting:

- A request line whose target does not begin with '/' fails the parse; nothing answers it with a 400.
- A header line without ':' is accepted with the whole line as its name. With skip_nonwhitespace as documented this needs a value after a whitespace character: `Host x` gives the name "Host x" and the value "x", and `Host` fails for want of a value. With the skip as written, any line that is not all whitespace is accepted, and, when it does not begin with whitespace, its value is the name: `Host` gives Host = Host (`Requests.NoColonWholeName`), while ` Host` gives the name " Host" and the value "Host" (`Requests.LeadingBlankAsWritten`).
- A header line beginning with ':' is accepted: `: x` gives the name " x" and the value "x" (`Requests.LeadingColonAccepted`). With the documented skip, the "no name" error of parse_request_headers can never occur, because a found value follows a whitespace character and so the line is not all ':'. With the skip as written, a line of colons only, such as `:::`, does get it (`Requests.ColonsOnlyNoNameAsWritten`).
- A file is copied with fgets and fputs, so each line is written only up to its first NUL.
- `handle_error` writes nothing to the client and returns its status unchanged.

## Model

| member | source | states |
|---|---|---|
| Text.Strtok | request.c:189-210 | strtok's token: it is preceded only by delimiters, holds none, and is followed by a delimiter or the end; None exactly when only delimiters remain |
| Text.Chomp | request.c:183 | chomp removes only a trailing run of CR and LF; what remains does not end in one |
| Text.ChompAppend | request.c:278 | chomp touches only the end of a line: a prefix not ending in CR or LF is kept whole |
| Text.Resume | request.c:198 | `strtok(NULL, ...)` resumes one past the end of the previous token, or at the end of the string when that token ran to it |
| Text.ReadLinesConcat | handler.c:138-141 | the lines fgets returns, put back together, are the stream |
| Text.Fputs | handler.c:140 | fputs writes its buffer exactly up to the first NUL: a NUL-free prefix, followed in the buffer by a NUL when it is shorter, and the whole buffer exactly when it holds no NUL |
| Text.CopyNulFree | handler.c:138-141 | copying a NUL-free stream line by line with fgets and fputs writes it exactly |
| Text.ReadLines | handler.c:138-141 | each fgets line is non-empty, every line but the last ends in a line feed, and no line has a line feed before its end |
| Utils.HttpStatusString | utils.c:136-147 | a status string exists exactly for the five table statuses and begins with a three-digit code and a space; other statuses give NULL |
| Utils.StatusCodes | utils.c:137-143 | the table gives 200, 400, 404, 500 and 418 for OK, Bad Request, Not Found, Internal Server Error and Teapot |
| Utils.StatusStringsDistinct | utils.c:137-143 | two different table statuses never share a status string |
| Utils.SkipWhitespace | utils.c:167-171 | NULL stays NULL; the result is a tail of the input with only spaces and tabs skipped, starting at a character that is neither |
| Utils.SkipWhitespaceIdempotent | utils.c:167-171 | skipping whitespace twice is the same as skipping it once |
| Utils.SkipNonwhitespace | utils.c:149-154 | the documented skip: a tail of the input, after non-whitespace only, starting at the first WHITESPACE character or at the end |
| Utils.SkipNonwhitespaceAsWritten | utils.c:155-159 | the loop as written skips WHITESPACE characters instead; it overruns the string (None) exactly when the string is all whitespace |
| Utils.SkipNonwhitespaceAsWrittenCounterexample | utils.c:155-159 | on "Host: x" the written loop stays at "Host: x"; the documented one reaches " x" |
| Utils.DetermineRequestPath | utils.c:97-126 | a path comes back exactly when both the URI and the root resolve and the resolved root is a textual prefix of the resolved URI; the path returned is the resolved URI |
| Utils.TraversalRefused | utils.c:120-121 | a URI that resolves outside the root (to /etc/passwd) is refused |
| Utils.SiblingDirectoryPasses | utils.c:120-125 | the containment comparison is on characters, not path components: /srv/www2/secret passes for root /srv/www |
| Utils.Extension | utils.c:40-41 | the extension is the text after the first '.' of the path; None exactly when there is no '.' |
| Utils.LineMatch | utils.c:48-63 | a `mime.types` line matches exactly when it has a first token and the extension is among the tokens the inner strtok loop visits after it; the result is that first token, non-empty and free of delimiters |
| Utils.ExtensionTokensOf | utils.c:51-56 | the inner strtok loop visits exactly the extensions of a rule, in order, each separated by one space |
| Utils.LookupExtension | utils.c:47-67 | the first matching line of the table decides; None exactly when no line matches |
| Utils.LookupAppend | utils.c:47-67 | across a split of the table the earlier part wins |
| Utils.MimeRuleMatches | utils.c:46-63 | a rule `MIMETYPE<SEP>EXT1 EXT2 ...` gives each listed extension that mimetype and matches no other extension |
| Utils.FirstTokenNeverCompared | utils.c:48-56 | the first token of a line is the mimetype and is never compared to the extension: a one-token line matches nothing |
| Utils.DetermineMimetype | utils.c:17-79 | the documented lookup: fails exactly when the table cannot be read; with no extension or no matching rule the default; otherwise the mimetype of the first matching line |
| Utils.DetermineMimetypeAsWritten | utils.c:40-78 | the code as written: NULL exactly when no line of the table matches the extension; when a line matches, the same mimetype as the corrected lookup, whatever the default |
| Utils.DetermineMimetypeCounterexample | utils.c:68-78 | for index.zzz and an empty table the code gives NULL where the default mimetype is intended |
| Requests.ParseRequestMethod | request.c:169-239 | the request line fails for want of input exactly when nothing or an empty line was read; an accepted line yields a method without spaces and a URI beginning with '/' holding no space or '?' |
| Requests.ParseRequestLine | request.c:187-226 | a chomped request line fails only for want of a method or of a URI; for want of a method exactly when it holds nothing but spaces; when accepted, its method, URI and query are well formed |
| Requests.RequestLineTokens | request.c:189-210 | after the method token, the line is accepted exactly when a second token exists and begins with '/'; the method is the first token and the second token is the URI followed by the query (or by a lone '?') |
| Requests.MethodOnlyRefused | request.c:198-203 | a request line with a method and no second token is refused for want of a URI |
| Requests.SplitTarget | request.c:207-210 | the URI is the target up to its first '?' and the query everything after it; there is no query when nothing follows the '?' |
| Requests.SplitTargetOf | request.c:207-210 | the target of a well-formed request line splits back into its URI and query |
| Requests.RequestLineRoundTrip | request.c:158-226 | `METHOD TARGET VERSION\r\n` parses back to its method, URI and query, whatever the version |
| Requests.VersionNotRequired | request.c:187-226 | a request line without a version is accepted the same way |
| Requests.TargetWithoutSlashRefused | request.c:198-203 | a second token that does not begin with '/' is refused with "no URI" |
| Requests.SplitHeader | request.c:284-311 | given the value pointer, the line fails for want of a value exactly when the value is empty and for want of a name exactly when the line is all ':'; an accepted name is non-empty and holds no ':'; when the line does not begin with ':', the value is the text at the value pointer, cut at its first ':' when no ':' precedes the pointer (strtok's NUL lands inside it) and whole otherwise |
| Requests.ParseHeaderLine | request.c:278-319 | a header line fails only for want of a value, never for want of a name; an accepted name is non-empty and holds no ':'; when the line does not begin with ':' the name is the line up to its first ':'; the value lies within the text after the first whitespace and the blanks that follow it |
| Requests.LeadingColonAccepted | request.c:282-311 | `: x` is accepted with the name " x" and the value "x" |
| Requests.NoColonWholeName | request.c:282-311 | a line without ':' is named by the whole line: with the documented skip `Host x` gives Host x = x and `Host` has no value; as written `Host` gives Host = Host |
| Requests.LeadingBlankAsWritten | request.c:282-311 | as written, ` Host` is named by the whole line, " Host", while the skip past its leading blank gives the value "Host" |
| Requests.ColonsOnlyNoNameAsWritten | request.c:282-299 | as written, a non-empty line of colons only fails for want of a name, and the written loop stops with that error |
| Requests.ParseHeaderLineAsWritten | request.c:282-311 | with skip_nonwhitespace as written, the parse reads past the end exactly when the line is all whitespace; a line beginning with a name character stores the name as the value |
| Requests.WholeLineCutAtName | request.c:294-311 | with the value pointer at the start of the line, the NUL strtok writes after the name ends the value: the value is the name |
| Requests.AsWrittenValueIsName | request.c:282-311 | as written, `Name: value` is stored as the header Name = Name |
| Requests.CrlfReadsPastEnd | request.c:276-283 | the CRLF line chomps to the empty string, past whose end the written skip reads |
| Requests.NoValueExactly | request.c:282-288 | a header line has no value exactly when only spaces and tabs follow its first whitespace character |
| Requests.HeaderLineRoundTrip | request.c:247-266 | `Name: value` splits back into its name and value |
| Requests.ParseHeadersWith | request.c:276-331 | the documented header loop over any line parser yields at most one header per line |
| Requests.ParseHeaders | request.c:268-342 | the header loop fails only for want of a value, and yields at most one header per line |
| Requests.HeadersInWireOrder | request.c:260-266 | header i comes from line i, and the section ends at the end of the stream or at a line that is empty once chomped |
| Requests.HeaderErrorLocated | request.c:276-299 | a failing header section fails with the error of one of its lines; every line before it parses and none up to it is blank |
| Requests.HeaderErrorFromLine | request.c:276-299 | the error of a failing header section is the error of one of its lines |
| Requests.HeadersRoundTrip | request.c:260-266 | well-formed headers sent one per line and followed by a blank line or the end of the stream are parsed back, all of them, in order |
| Requests.HeadersRoundTripWith | request.c:260-266 | the same for any line parser that parses each formatted header back |
| Requests.HeaderLoopAsWritten | request.c:276-329 | the loop as written, for any line parser: it keeps at most one header, and never replaces the first one |
| Requests.ParseHeadersAsWritten | request.c:276-329 | the loop as written keeps at most one header, and never replaces the first one |
| Requests.BlankLineReachesParser | request.c:276-288 | as written, the CRLF line ending the headers reaches the header parser, which reads past its end |
| Requests.BlankLineCounterexample | request.c:276-288 | `Host: a`, then CRLF: reading past the end as written; the header Host = a as documented |
| Requests.SecondHeaderDropped | request.c:282-329 | as written, of two header lines only the first header is kept, with its name as its value |
| Requests.HeaderListCounterexample | request.c:282-329 | `A: 1`, `B: 2`: only A = A is kept as written; A = 1 and B = 2, in order, as documented |
| Requests.ParseRequest | request.c:134-150 | with the corrected header loop (see ## Findings): a request fails for want of input exactly when there is no line or an empty one; when accepted, the request line is well formed and there are fewer headers than lines |
| Requests.RequestRoundTrip | request.c:134-150 | with the corrected header loop (see ## Findings): a well-formed request sent as request line, header lines and blank line parses back to itself, whatever follows |
| Options.ModeNamed | spidey.c:57-66 | `-c` selects forking and single exactly by those names; any other name is the unknown mode |
| Options.Scan | spidey.c:52-87 | the option loop from one argument on: the usage it prints always exits 0; it is undefined only when the last argument is `-c`; past the end it keeps the settings it has |
| Options.ParseOptions | spidey.c:46-89 | with no arguments, usage and exit 0; when the first argument is not an option, the defaults and the initial mode are kept |
| Options.OptionsRoundTrip | spidey.c:52-87 | a command line of options only, each flag spelled in any way whose second character is a value option's letter (`-m`, `-mfoo`, `-port`), is accepted; each setting takes the value of its last occurrence, or keeps its default |
| Options.LongFlagsAccepted | spidey.c:53-79 | only the second character of a flag is inspected: `-mfoo x` sets the mimetypes path and `-port 80` the port |
| Options.HelpWins | spidey.c:54-55 | `-h` after any options prints usage and exits 0, whatever follows |
| Options.UnknownOptionRejected | spidey.c:83-84 | an option letter outside h, c, m, M, p, r makes parse_options fail |
| Options.OptionsEndAtOperand | spidey.c:52 | the first argument that does not begin with '-' ends the options; it and the rest are ignored |
| Options.MissingValue | spidey.c:57-82 | a value option given last: for `-c` the behaviour is undefined; the others store NULL |
| Options.ScanAtLast | spidey.c:57-82 | the same, at the scan step itself |
| Options.ServerFor | spidey.c:118-136 | the single-connection server runs exactly in mode single; forking and unknown both fork |
| Options.Main | spidey.c:94-138 | main exits 1 exactly when the options are rejected and 0 exactly at usage; a server runs exactly when the options are accepted, is the one for the mode, and main fails exactly when that server does |
| Options.UnknownModeForks | spidey.c:57-66 | `-c` with any name other than forking or single runs the forking server |
| Options.ModeWithoutOption | spidey.c:95 | without `-c` the server depends on the uninitialised mode: the single server only when it happens to hold single |
| Handler.HandleBrowse | handler.c:59-95 | an unreadable directory gives 404 and writes nothing; otherwise 200 and the page listing the shown entries |
| Handler.Listed | handler.c:82-87 | the shown entries are never "." or "..", and no more than the directory holds |
| Handler.ListedExactly | handler.c:82-87 | a name is listed exactly when the directory holds it and it is neither "." nor ".." |
| Handler.ListedInOrder | handler.c:82-87 | entries are listed in the order the directory gives them; nothing is sorted |
| Handler.EmptyListing | handler.c:74-90 | a directory holding only "." and ".." gives an empty list |
| Handler.ItemsRoundTrip | handler.c:86 | the written list items read back as exactly the listed names, when no name holds '<' |
| Handler.BrowseNamesListed | handler.c:74-90 | the list in a listing page names exactly the shown entries, in order |
| Handler.ListedAsWritten | handler.c:84 | the filter as written shows nothing but ".", and no more than the directory holds |
| Handler.DotsListedAsWritten | handler.c:82-87 | the filter as written shows "." once for each time the directory enumerates it, and nothing else |
| Handler.HandleBrowseAsWritten | handler.c:59-95 | as written: an unreadable directory gives 404 and writes nothing; otherwise 200 and a page whose items are one "." per "." entry |
| Handler.BrowseFilterCounterexample | handler.c:84 | ".", "..", "index.html": only "." as written; only "index.html" as intended |
| Handler.HandleFile | handler.c:108-158 | an unopenable file gives 404 and writes nothing; a missing mimetype gives 500 and writes nothing; otherwise 200, and for a file holding no NUL the header with the mimetype and the whole file between `<html>` and `</html>` |
| Handler.FileCopyBounded | handler.c:133-143 | whatever the file holds, the page is the header and a copied text between `<html>` and `</html>` that holds no NUL and is no longer than the file |
| Handler.NulCutsFile | handler.c:138-141 | a NUL inside a line drops the rest of that line: `a NUL b LF c` is copied as `ac` |
| Handler.FileFailsOnlyWithoutTable | handler.c:124-130 | with the documented mimetype lookup, a readable file gives 500 exactly when the mime.types table cannot be read |
| Handler.HandleError | handler.c:230-243 | nothing is written and the status comes back unchanged |

## Left out

- `handle_request` and `handle_cgi_request` (handler.c) are not modelled. They dispatch on the file type of the request path and run CGI scripts through popen(3): process execution and the file system.
- `accept_request` and `free_request` (request.c) are not modelled. They do socket accept, getnameinfo, fdopen and memory release. A request's connection fields are left out of `Requests.Request`.
- forking.c, single.c, main.c, thor.py and bc.py are not part of this model: process and socket handling, and a load-testing client.
- `socket_listen` is not modelled: the listening socket and the port are I/O. `Options.Main` takes the server's result as a parameter.
- BUFSIZ is not modelled. A line longer than the buffer is split by fgets in the source; here lines are unbounded.
- Logging, the `debug` and `log` output and the usage text are left out. Only usage's exit status is modelled.
- Memory allocation failures and leaks are left out. The headers' calloc failure path is not modelled.
- The uninitialised `mode` variable of main is the parameter `initialMode`.
- Options.Main: its result does not record the listening socket or the text main logs.
- Requests.ParseHeaderLine: the value is stated as a prefix of the text after the first whitespace and blanks, not exactly. It is cut at the ':' that strtok overwrites with NUL when that ':' lies inside the value; the body models the cut.
- Requests.ParseHeaders: the value scan starts from the previous `name` pointer (request.c:271, 282). That is the start of the buffer unless the previous header line began with ':'. The model always starts at the line's beginning. Requests.ParseHeadersAsWritten does the same.
- Requests.ParseRequestMethod: a line read is taken to hold no NUL. In the source strlen, chomp and strtok stop at the first NUL of the buffer (request.c:177, 183).
- Requests.ParseHeaders: the same for header lines (request.c:276-278).
- Utils.DetermineMimetype: an unreadable mime.types file is a lookup failure (None). The source goes on to call fgets on a NULL stream.
- Utils.DetermineMimetypeAsWritten: requires a '.' in the path. Without one the source steps one past a NULL pointer.
- Utils.SkipNonwhitespaceAsWritten: reading past the end of an all-whitespace string is None rather than the bytes beyond it.
- Options.Scan: `-c` given last reads argv[argc] (NULL) with strcmp. This is the outcome `Undefined`, not a particular crash.

## Findings

| source | as written | input that shows it | evidently intended | confidence | as-written member | corrected member |
|---|---|---|---|---|---|---|
| utils.c:155-159 | the loop skips while the character IS in WHITESPACE | "Host: x" stays at "Host: x" | stop at the first whitespace, " x" | not executed | Utils.SkipNonwhitespaceAsWritten, Utils.SkipNonwhitespaceAsWrittenCounterexample | Utils.SkipNonwhitespace |
| request.c:323-329 | `curr = curr->next` never links a header after the first | lines "A: 1", "B: 2" give only A (with value "A", through the skip above) | every header appended in order | not executed | Requests.ParseHeadersAsWritten, Requests.SecondHeaderDropped, Requests.HeaderListCounterexample | Requests.ParseHeaders, Requests.HeadersRoundTrip, Requests.ParseRequest, Requests.RequestRoundTrip |
| request.c:276-278 | the end-of-headers test runs before chomp, so "\r\n" is not empty | "Host: a", "\r\n" reads past the end of the chomped blank line | stop at the blank line | not executed | Requests.BlankLineReachesParser, Requests.BlankLineCounterexample | Requests.ParseHeaders, Requests.HeadersRoundTrip, Requests.ParseRequest, Requests.RequestRoundTrip |
| utils.c:68-78 | the default mimetype is copied but NULL is returned | "index.zzz" with no matching rule gives NULL, and the file request fails with 500 | return the default mimetype | not executed | Utils.DetermineMimetypeAsWritten, Utils.DetermineMimetypeCounterexample | Utils.DetermineMimetype, Handler.FileFailsOnlyWithoutTable |
| handler.c:84 | `streq(name, ".") == 0` skips every name but "." | ".", "..", "index.html" lists only "." | skip "." and ".." and list the rest | not executed | Handler.ListedAsWritten, Handler.HandleBrowseAsWritten, Handler.BrowseFilterCounterexample | Handler.Listed, Handler.HandleBrowse, Handler.ListedExactly |

=== FILE: base.dfy ===
/** Optional values and error-or-value results, standing in for the NULL
    pointers and -1 returns of the C server. */
module Base {

  /** A value that may be absent (a C pointer that may be NULL). */
  datatype Option<+T> = None | Some(value: T)

  /** Either a value or the reason it could not be produced. */
  datatype Result<+T, +E> = Ok(value: T) | Err(error: E)
}

=== FILE: handler.dfy ===
/** The response handlers of handler.c as functions from what the file
    system gives them (a directory listing, a file's contents, a mimetype)
    to the status they return and the bytes they write to the client. */
module Handler {
  import opened Base
  import opened Text
  import opened Utils

  /** What a handler returns and what it has written to the socket. */
  datatype Response = Response(status: nat, written: string)

  // ---------------------------------------------------------------------
  // Directory listings

  /** The status line and headers of a directory listing. */
  const BrowseHead := "HTTP/1.1 200 OK\r\nContent-Type: text/html\r\n\r\n"

  /** One list item, `<li>NAME</li>`. */
  function Item(name: string): string {
    "<li>" + name + "</li>"
  }

  /** The list items for `names`, in order. */
  function Items(names: seq<string>): string {
    if names == [] then [] else Item(names[0]) + Items(names[1..])
  }

  /** What a listing writes before and after its items. */
  const PageHead := BrowseHead + "<html>" + "<ul>"
  const PageTail := "</ul>" + "</html>"

  /** The listing page around the emitted names. */
  function ListingPage(names: seq<string>): string {
    PageHead + Items(names) + PageTail
  }

  /** The entries a listing shows: every name but "." and "..", in the
      order the directory enumerates them. */
  function Listed(entries: seq<string>): (r: seq<string>)
    ensures |r| <= |entries|
    ensures forall i :: 0 <= i < |r| ==> r[i] != "." && r[i] != ".."
  {
    if entries == [] then []
    else if entries[0] == "." || entries[0] == ".." then Listed(entries[1..])
    else [entries[0]] + Listed(entries[1..])
  }

  /** handle_browse_request: `entries` is what readdir enumerates, None
      when opendir fails. A failure writes nothing and gives 404. */
  function HandleBrowse(entries: Option<seq<string>>): (r: Response)
    ensures entries.None? ==> r == Response(StatusNotFound, [])
    ensures entries.Some? ==> r.status == StatusOk && r.written == ListingPage(Listed(entries.value))
  {
    match entries
    case None => Response(StatusNotFound, [])
    case Some(es) => Response(StatusOk, ListingPage(Listed(es)))
  }

  /** A name is listed exactly when the directory holds it and it is
      neither "." nor "..". */
  lemma {:induction false} ListedExactly(entries: seq<string>, name: string)
    ensures name in Listed(entries) <==> name in entries && name != "." && name != ".."
  {
    if entries != [] {
      ListedExactly(entries[1..], name);
      assert entries == [entries[0]] + entries[1..];
    }
  }

  /** Listing keeps the enumeration order: no sorting takes place. */
  lemma {:induction false} ListedInOrder(a: seq<string>, b: seq<string>)
    ensures Listed(a + b) == Listed(a) + Listed(b)
  {
    if a == [] {
      assert a + b == b;
    } else {
      assert (a + b)[1..] == a[1..] + b;
      ListedInOrder(a[1..], b);
    }
  }

  /** A directory holding only "." and ".." gives an empty list. */
  lemma {:induction false} EmptyListing(entries: seq<string>)
    requires forall i :: 0 <= i < |entries| ==> entries[i] == "." || entries[i] == ".."
    ensures HandleBrowse(Some(entries)).written == BrowseHead + "<html><ul></ul></html>"
  {
    NothingListed(entries);
  }

  lemma {:induction false} NothingListed(entries: seq<string>)
    requires forall i :: 0 <= i < |entries| ==> entries[i] == "." || entries[i] == ".."
    ensures Listed(entries) == []
  {
    if entries != [] {
      NothingListed(entries[1..]);
    }
  }

  /** Reads the names back out of a run of list items, for names that hold
      no '<'. */
  function DecodeItems(s: string): Option<seq<string>>
    decreases |s|
  {
    if s == [] then Some([])
    else if |s| < 4 || s[..4] != "<li>" then None
    else
      var j := SkipUntil(s, 4, {'<'});
      if j + 5 <= |s| && s[j..j + 5] == "</li>" then
        match DecodeItems(s[j + 5..])
        case None => None
        case Some(ns) => Some([s[4..j]] + ns)
      else None
  }

  /** The first item of a run of items. */
  lemma ItemsHead(names: seq<string>)
    requires names != [] && '<' !in names[0]
    ensures var s := Items(names);
            var j := 4 + |names[0]|;
            && j + 5 <= |s| && s[..4] == "<li>"
            && SkipUntil(s, 4, {'<'}) == j
            && s[4..j] == names[0] && s[j..j + 5] == "</li>"
            && s[j + 5..] == Items(names[1..])
  {
    var n := names[0];
    var s := Items(names);
    var j := 4 + |n|;
    assert s == "<li>" + n + "</li>" + Items(names[1..]);
    assert forall k :: 4 <= k < j ==> s[k] == n[k - 4];
    SkipUntilIs(s, 4, {'<'}, j);
  }

  /** The items written for a listing name exactly the listed entries, in
      order, as long as no name holds a '<'. */
  lemma {:induction false} ItemsRoundTrip(names: seq<string>)
    requires forall i :: 0 <= i < |names| ==> '<' !in names[i]
    ensures DecodeItems(Items(names)) == Some(names)
  {
    if names != [] {
      ItemsHead(names);
      ItemsRoundTrip(names[1..]);
      assert [names[0]] + names[1..] == names;
    }
  }

  /** The list in a browse response names the listed entries, in order. */
  lemma BrowseNamesListed(entries: seq<string>)
    requires forall i :: 0 <= i < |entries| ==> '<' !in entries[i]
    ensures var w := HandleBrowse(Some(entries)).written;
            && |PageHead| + |PageTail| <= |w|
            && DecodeItems(w[|PageHead|..|w| - |PageTail|]) == Some(Listed(entries))
  {
    ListedNoLt(entries);
    ItemsRoundTrip(Listed(entries));
    PageItems(Listed(entries));
  }

  /** Names without '<' stay so once listed. */
  lemma {:induction false} ListedNoLt(entries: seq<string>)
    requires forall i :: 0 <= i < |entries| ==> '<' !in entries[i]
    ensures forall i :: 0 <= i < |Listed(entries)| ==> '<' !in Listed(entries)[i]
  {
    if entries != [] {
      ListedNoLt(entries[1..]);
    }
  }

  /** Where the items sit in a listing page. */
  lemma PageItems(names: seq<string>)
    ensures var w := ListingPage(names);
            && |PageHead| + |PageTail| <= |w|
            && w[|PageHead|..|w| - |PageTail|] == Items(names)
  {
    Middle(PageHead, Items(names), PageTail);
  }

  /** The middle of a three-part concatenation. */
  lemma Middle(p: string, m: string, q: string)
    ensures (p + m + q)[|p|..|p + m + q| - |q|] == m
  {
  }

  /** The filter as written at handler.c:84: `streq(name, ".") == 0` is
      true for every name other than ".", so every such name is skipped,
      and ".." with it; only "." is listed. */
  function ListedAsWritten(entries: seq<string>): (r: seq<string>)
    ensures |r| <= |entries|
    ensures forall i :: 0 <= i < |r| ==> r[i] == "."
  {
    if entries == [] then []
    else if entries[0] != "." || entries[0] == ".." then ListedAsWritten(entries[1..])
    else [entries[0]] + ListedAsWritten(entries[1..])
  }

  /** `n` copies of ".". */
  function Dots(n: nat): seq<string> {
    seq(n, _ => ".")
  }

  /** The written filter lists "." once for each time the directory
      enumerates it, and nothing else. */
  lemma {:induction false} DotsListedAsWritten(entries: seq<string>)
    ensures ListedAsWritten(entries) == Dots(multiset(entries)["."])
  {
    if entries != [] {
      DotsListedAsWritten(entries[1..]);
      assert entries == [entries[0]] + entries[1..];
      assert multiset(entries) == multiset{entries[0]} + multiset(entries[1..]);
      if entries[0] == "." {
        assert Dots(multiset(entries)["."]) == ["."] + Dots(multiset(entries[1..])["."]);
      }
    }
  }

  /** handle_browse_request with the filter as written: the page lists a
      "." item per "." entry and nothing else. */
  function HandleBrowseAsWritten(entries: Option<seq<string>>): (r: Response)
    ensures entries.None? ==> r == Response(StatusNotFound, [])
    ensures entries.Some? ==> r.status == StatusOk
                              && r.written == ListingPage(Dots(multiset(entries.value)["."]))
  {
    match entries
    case None => Response(StatusNotFound, [])
    case Some(es) =>
      DotsListedAsWritten(es);
      Response(StatusOk, ListingPage(ListedAsWritten(es)))
  }

  /** A typical directory: the written filter lists ".", the intended one
      lists the file. */
  lemma BrowseFilterCounterexample()
    ensures ListedAsWritten([".", "..", "index.html"]) == ["."]
    ensures Listed([".", "..", "index.html"]) == ["index.html"]
  {
    var es := [".", "..", "index.html"];
    assert es[1..] == ["..", "index.html"];
    assert es[1..][1..] == ["index.html"];
    assert es[1..][1..][1..] == [];
  }

  // ---------------------------------------------------------------------
  // Files

  /** The status line and headers of a file response ("HTML/1.1" is what
      the source writes). */
  function FileHead(mimetype: string): string {
    "HTML/1.1 200 OK\r\nContent-Type: " + mimetype + "\r\n\r\n"
  }

  /** The page a file response writes around the copied text. */
  function FilePage(mimetype: string, body: string): string {
    FileHead(mimetype) + "<html>" + body + "</html>"
  }

  /** handle_file_request: `content` is the file, None when it cannot be
      opened; `mimetype` is what determine_mimetype returned. The file is
      copied line by line with fgets and fputs between `<html>` and
      `</html>`, so each line is written only up to its first NUL. */
  function HandleFile(content: Option<string>, mimetype: Option<string>): (r: Response)
    ensures content.None? ==> r == Response(StatusNotFound, [])
    ensures content.Some? && mimetype.None? ==> r == Response(StatusInternalServerError, [])
    ensures content.Some? && mimetype.Some? ==> r.status == StatusOk
    ensures content.Some? && mimetype.Some? && Nul !in content.value ==>
              r.written == FilePage(mimetype.value, content.value)
  {
    match content
    case None => Response(StatusNotFound, [])
    case Some(c) =>
      match mimetype
      case None => Response(StatusInternalServerError, [])
      case Some(m) =>
        CopyWhenNulFree(c);
        Response(StatusOk, FilePage(m, PutLines(ReadLines(c))))
  }

  /** Whatever the file holds, no NUL reaches the client and the copied
      text is no longer than the file. */
  lemma {:induction false} FileCopyBounded(c: string, m: string)
    ensures exists body :: HandleFile(Some(c), Some(m)).written == FilePage(m, body)
                           && Nul !in body && |body| <= |c|
  {
    var lines := ReadLines(c);
    ReadLinesConcat(c);
    PutLinesBounded(lines);
    var body := PutLines(lines);
    assert HandleFile(Some(c), Some(m)).written == FilePage(m, body);
  }

  /** fputs writes no NUL and no more than each buffer holds. */
  lemma {:induction false} PutLinesBounded(lines: seq<string>)
    ensures Nul !in PutLines(lines) && |PutLines(lines)| <= |Concat(lines)|
  {
    if lines != [] {
      PutLinesBounded(lines[1..]);
    }
  }

  /** A file with a NUL in a line loses the rest of that line. */
  lemma NulCutsFile(m: string)
    ensures HandleFile(Some("a" + [Nul] + "b\nc"), Some(m)).written == FilePage(m, "a" + "c")
  {
    var c := "a" + [Nul] + "b\nc";
    SkipUntilIs(c, 0, {'\n'}, 3);
    assert c[..4] == "a" + [Nul] + "b\n";
    assert c[4..] == "c";
    SkipUntilIs("c", 0, {'\n'}, 1);
    assert "c"[1..] == [] && "c"[..1] == "c";
    assert ReadLines("c") == ["c"];
    assert ReadLines(c) == [c[..4]] + ["c"];
    SkipUntilIs(c[..4], 0, {Nul}, 1);
    SkipUntilIs("c", 0, {Nul}, 1);
    assert Fputs(c[..4]) == "a";
    assert PutLines(["c"]) == "c";
    PutLinesCons(c[..4], ["c"]);
  }

  /** With the mimetype lookup of utils.c, a readable file fails with 500
      exactly when the mime.types table cannot be read. */
  lemma FileFailsOnlyWithoutTable(path: string, content: Option<string>, table: Option<seq<string>>, default: string)
    ensures HandleFile(content, DetermineMimetype(path, table, default)).status == StatusInternalServerError
            <==> content.Some? && table.None?
  {
  }

  // ---------------------------------------------------------------------
  // Errors

  /** handle_error: the warning header it builds is never written, and the
      status comes back unchanged. */
  function HandleError(status: nat): (r: Response)
    ensures r.status == status && r.written == []
  {
    Response(status, [])
  }
}

=== FILE: options.dfy ===
/** The command line of the server (spidey.c): the option scan of
    parse_options, the four global settings with their defaults, and the
    way main chooses between the forking and the single-connection server. */
module Options {
  import opened Base

  /** The concurrency mode chosen with `-c`. */
  datatype Mode = Forking | Single | Unknown

  /** The global settings. `None` stands for a NULL pointer: what an option
      given as the last argument, without its value, stores. */
  datatype Config = Config(
    port: Option<string>,
    mimeTypesPath: Option<string>,
    defaultMimeType: Option<string>,
    rootPath: Option<string>)

  /** The values the globals start with. */
  const Defaults := Config(Some("9898"), Some("/etc/mime.types"), Some("text/plain"), Some("www"))

  /** What parse_options does with a command line. */
  datatype Outcome =
    | Usage(status: int)               // usage() printed and the process exited
    | Rejected                         // an unknown option: returns false
    | Undefined                        // `-c` last: strcmp on argv[argc], a NULL pointer
    | Accepted(config: Config, mode: Mode)

  /** The options that take a value. */
  const ValueLetters: set<char> := {'c', 'm', 'M', 'p', 'r'}

  /** An argument the scan treats as an option: its first character is '-'. */
  predicate IsOption(arg: string) {
    |arg| > 0 && arg[0] == '-'
  }

  /** The character the switch looks at: the second one, or the NUL
      terminator of a one-character argument. */
  function OptionLetter(arg: string): char {
    if |arg| > 1 then arg[1] else 0 as char
  }

  /** The mode `-c` names: exactly "forking" or "single", else Unknown. */
  function ModeNamed(name: string): (m: Mode)
    ensures m == Forking <==> name == "forking"
    ensures m == Single <==> name == "single"
    ensures m == Unknown <==> name != "forking" && name != "single"
  {
    if name == "forking" then Forking else if name == "single" then Single else Unknown
  }

  /** The setting option `letter` (one of m, M, p, r) stores. */
  function Set(cfg: Config, letter: char, value: Option<string>): Config
    requires letter in ValueLetters - {'c'}
  {
    match letter
    case 'm' => cfg.(mimeTypesPath := value)
    case 'M' => cfg.(defaultMimeType := value)
    case 'p' => cfg.(port := value)
    case 'r' => cfg.(rootPath := value)
  }

  /** The loop of parse_options from argument `i`. A value option takes the
      next argument whatever it looks like; when there is none it reads
      argv[argc] (NULL) and the loop ends. */
  function Scan(argv: seq<string>, i: nat, cfg: Config, mode: Mode): (r: Outcome)
    ensures r.Usage? ==> r.status == 0
    ensures r == Undefined ==> i < |argv| && IsOption(argv[|argv| - 1]) && OptionLetter(argv[|argv| - 1]) == 'c'
    ensures i >= |argv| ==> r == Accepted(cfg, mode)
    decreases |argv| - i
  {
    if i >= |argv| || !IsOption(argv[i]) then Accepted(cfg, mode)
    else
      var letter := OptionLetter(argv[i]);
      if letter == 'h' then Usage(0)
      else if letter !in ValueLetters then Rejected
      else if i + 1 == |argv| then
        if letter == 'c' then Undefined else Accepted(Set(cfg, letter, None), mode)
      else if letter == 'c' then Scan(argv, i + 2, cfg, ModeNamed(argv[i + 1]))
      else Scan(argv, i + 2, Set(cfg, letter, Some(argv[i + 1])), mode)
  }

  /** parse_options: no arguments at all prints the usage and exits 0;
      otherwise the scan starts after the program name with the defaults
      and the caller's (uninitialised) mode. */
  function ParseOptions(argv: seq<string>, initialMode: Mode): (r: Outcome)
    ensures |argv| == 1 ==> r == Usage(0)
    ensures r.Usage? ==> r.status == 0
    ensures |argv| > 1 && !IsOption(argv[1]) ==> r == Accepted(Defaults, initialMode)
  {
    if |argv| == 1 then Usage(0) else Scan(argv, 1, Defaults, initialMode)
  }

  // ---------------------------------------------------------------------
  // A reference reading: a run of options, the last occurrence winning

  /** One option with its value, as a caller writes it: `flag` is the
      argument as spelled (`-m`, `-mfoo`, `-port`), `letter` the character
      the switch sees in it. */
  datatype Opt = Opt(flag: string, letter: char, value: string)

  /** Any spelling counts whose second character is a value option's letter. */
  predicate ValidOpt(o: Opt) {
    |o.flag| > 1 && o.flag[0] == '-' && o.flag[1] == o.letter && o.letter in ValueLetters
  }

  /** Every option of a run is valid. */
  predicate AllValid(opts: seq<Opt>) {
    opts == [] || (ValidOpt(opts[0]) && AllValid(opts[1..]))
  }

  /** The arguments a run of options occupies: the flag, then its value. */
  function Flatten(opts: seq<Opt>): seq<string> {
    if opts == [] then [] else [opts[0].flag, opts[0].value] + Flatten(opts[1..])
  }

  /** Each option occupies two arguments. */
  lemma {:induction false} FlattenLength(opts: seq<Opt>)
    ensures |Flatten(opts)| == 2 * |opts|
  {
    if opts != [] {
      FlattenLength(opts[1..]);
    }
  }

  /** The value the last option with `letter` gives, if any. */
  function LastValue(opts: seq<Opt>, letter: char): Option<string> {
    if opts == [] then None
    else if opts[|opts| - 1].letter == letter then Some(opts[|opts| - 1].value)
    else LastValue(opts[..|opts| - 1], letter)
  }

  /** A setting after a run of options: the last value given, else as before. */
  function After(opts: seq<Opt>, letter: char, before: Option<string>): Option<string> {
    if LastValue(opts, letter).Some? then LastValue(opts, letter) else before
  }

  /** The settings a run of options leaves behind. */
  function Settle(opts: seq<Opt>, cfg: Config): Config {
    Config(After(opts, 'p', cfg.port), After(opts, 'm', cfg.mimeTypesPath),
           After(opts, 'M', cfg.defaultMimeType), After(opts, 'r', cfg.rootPath))
  }

  /** The mode a run of options leaves behind. */
  function SettleMode(opts: seq<Opt>, mode: Mode): Mode {
    if LastValue(opts, 'c').Some? then ModeNamed(LastValue(opts, 'c').value) else mode
  }

  /** The last occurrence among `[o] + rest`: the one in `rest`, else `o`. */
  lemma {:induction false} LastValueCons(o: Opt, rest: seq<Opt>, letter: char)
    ensures LastValue([o] + rest, letter)
            == if LastValue(rest, letter).Some? then LastValue(rest, letter)
               else if o.letter == letter then Some(o.value) else None
    decreases |rest|
  {
    var all := [o] + rest;
    if rest != [] {
      assert all[|all| - 1] == rest[|rest| - 1];
      assert all[..|all| - 1] == [o] + rest[..|rest| - 1];
      LastValueCons(o, rest[..|rest| - 1], letter);
    } else {
      assert all[..|all| - 1] == [];
    }
  }

  /** Settling `[o] + rest` is settling `rest` after `o`. */
  lemma SettleCons(o: Opt, rest: seq<Opt>, cfg: Config, mode: Mode)
    requires ValidOpt(o)
    ensures o.letter != 'c' ==>
              Settle([o] + rest, cfg) == Settle(rest, Set(cfg, o.letter, Some(o.value)))
              && SettleMode([o] + rest, mode) == SettleMode(rest, mode)
    ensures o.letter == 'c' ==>
              Settle([o] + rest, cfg) == Settle(rest, cfg)
              && SettleMode([o] + rest, mode) == SettleMode(rest, ModeNamed(o.value))
  {
    LastValueCons(o, rest, 'p');
    LastValueCons(o, rest, 'm');
    LastValueCons(o, rest, 'M');
    LastValueCons(o, rest, 'r');
    LastValueCons(o, rest, 'c');
  }

  /** The arguments of `[o] + rest`: the option, its value, then the rest. */
  lemma FlattenCons(o: Opt, rest: seq<Opt>, tail: seq<string>)
    ensures Flatten([o] + rest) + tail == [o.flag, o.value] + (Flatten(rest) + tail)
  {
    assert ([o] + rest)[1..] == rest;
  }

  /** The scan passes over a run of options, each setting replacing the one
      before, and carries on with whatever follows them. */
  lemma {:induction false} ScanOptions(argv: seq<string>, i: nat, opts: seq<Opt>, tail: seq<string>, cfg: Config, mode: Mode)
    requires AllValid(opts)
    requires i <= |argv| && argv[i..] == Flatten(opts) + tail
    ensures Scan(argv, i, cfg, mode) == Scan(argv, |argv| - |tail|, Settle(opts, cfg), SettleMode(opts, mode))
    decreases |opts|
  {
    if opts == [] {
      assert argv[i..] == tail;
    } else {
      var o := opts[0];
      var rest := opts[1..];
      assert [o] + rest == opts;
      FlattenCons(o, rest, tail);
      assert argv[i] == o.flag && argv[i + 1] == o.value;
      assert argv[i + 2..] == Flatten(rest) + tail;
      SettleCons(o, rest, cfg, mode);
      if o.letter == 'c' {
        ScanOptions(argv, i + 2, rest, tail, cfg, ModeNamed(o.value));
      } else {
        ScanOptions(argv, i + 2, rest, tail, Set(cfg, o.letter, Some(o.value)), mode);
      }
    }
  }

  /** The arguments after the program name. */
  lemma AfterProgram(prog: string, args: seq<string>, next: seq<string>, rest: seq<string>)
    ensures ([prog] + args + next + rest)[1..] == args + (next + rest)
  {
  }

  /** After the program name, the scan passes over a run of options and
      reaches what follows them. */
  lemma ScanReaches(argv: seq<string>, opts: seq<Opt>, tail: seq<string>, cfg: Config, mode: Mode)
    requires AllValid(opts)
    requires 1 <= |argv| && argv[1..] == Flatten(opts) + tail
    ensures 1 + 2 * |opts| <= |argv| && argv[1 + 2 * |opts|..] == tail
    ensures Scan(argv, 1, cfg, mode) == Scan(argv, 1 + 2 * |opts|, Settle(opts, cfg), SettleMode(opts, mode))
  {
    FlattenLength(opts);
    ScanOptions(argv, 1, opts, tail, cfg, mode);
  }

  /** A command line made of options only is accepted, each setting taking
      the value of its last occurrence and keeping its default otherwise. */
  lemma OptionsRoundTrip(prog: string, opts: seq<Opt>, initialMode: Mode)
    requires opts != [] && AllValid(opts)
    ensures ParseOptions([prog] + Flatten(opts), initialMode)
            == Accepted(Settle(opts, Defaults), SettleMode(opts, initialMode))
  {
    var argv := [prog] + Flatten(opts);
    AfterProgram(prog, Flatten(opts), [], []);
    assert argv + [] + [] == argv;
    ScanReaches(argv, opts, [], Defaults, initialMode);
  }

  /** Only the second character of a flag is looked at: `-mfoo x` and
      `-port 80` set the mimetypes path and the port as `-m` and `-p` do. */
  lemma LongFlagsAccepted(prog: string, initialMode: Mode)
    ensures ParseOptions([prog, "-mfoo", "x"], initialMode)
            == Accepted(Defaults.(mimeTypesPath := Some("x")), initialMode)
    ensures ParseOptions([prog, "-port", "80"], initialMode)
            == Accepted(Defaults.(port := Some("80")), initialMode)
  {
    var m := [Opt("-mfoo", 'm', "x")];
    assert m[1..] == [] && Flatten(m) == ["-mfoo", "x"] + Flatten([]);
    assert [prog] + Flatten(m) == [prog, "-mfoo", "x"];
    OptionsRoundTrip(prog, m, initialMode);
    assert LastValue(m, 'm') == Some("x") && LastValue(m[..0], 'p') == None;
    var p := [Opt("-port", 'p', "80")];
    assert p[1..] == [] && Flatten(p) == ["-port", "80"] + Flatten([]);
    assert [prog] + Flatten(p) == [prog, "-port", "80"];
    OptionsRoundTrip(prog, p, initialMode);
    assert LastValue(p, 'p') == Some("80");
  }

  /** `-h` after any run of options prints the usage and exits 0, whatever follows. */
  lemma HelpWins(prog: string, opts: seq<Opt>, help: string, rest: seq<string>, initialMode: Mode)
    requires AllValid(opts)
    requires IsOption(help) && OptionLetter(help) == 'h'
    ensures ParseOptions([prog] + Flatten(opts) + [help] + rest, initialMode) == Usage(0)
  {
    var argv := [prog] + Flatten(opts) + [help] + rest;
    AfterProgram(prog, Flatten(opts), [help], rest);
    ScanReaches(argv, opts, [help] + rest, Defaults, initialMode);
    assert argv[1 + 2 * |opts|] == help;
  }

  /** An option letter outside h, c, m, M, p, r makes parse_options fail. */
  lemma UnknownOptionRejected(prog: string, opts: seq<Opt>, bad: string, rest: seq<string>, initialMode: Mode)
    requires AllValid(opts)
    requires IsOption(bad) && OptionLetter(bad) != 'h' && OptionLetter(bad) !in ValueLetters
    ensures ParseOptions([prog] + Flatten(opts) + [bad] + rest, initialMode) == Rejected
  {
    var argv := [prog] + Flatten(opts) + [bad] + rest;
    AfterProgram(prog, Flatten(opts), [bad], rest);
    ScanReaches(argv, opts, [bad] + rest, Defaults, initialMode);
    assert argv[1 + 2 * |opts|] == bad;
  }

  /** The first argument that does not begin with '-' ends the options:
      it and everything after it are ignored. */
  lemma OptionsEndAtOperand(prog: string, opts: seq<Opt>, operand: string, rest: seq<string>, initialMode: Mode)
    requires AllValid(opts)
    requires !IsOption(operand)
    ensures ParseOptions([prog] + Flatten(opts) + [operand] + rest, initialMode)
            == Accepted(Settle(opts, Defaults), SettleMode(opts, initialMode))
  {
    var argv := [prog] + Flatten(opts) + [operand] + rest;
    AfterProgram(prog, Flatten(opts), [operand], rest);
    ScanReaches(argv, opts, [operand] + rest, Defaults, initialMode);
    assert argv[1 + 2 * |opts|] == operand;
  }

  /** A value option given last, without its value: `-c` reaches undefined
      behaviour; the others store NULL and the scan ends. */
  lemma MissingValue(prog: string, opts: seq<Opt>, last: string, initialMode: Mode)
    requires AllValid(opts)
    requires IsOption(last) && OptionLetter(last) in ValueLetters
    ensures OptionLetter(last) == 'c' ==>
              ParseOptions([prog] + Flatten(opts) + [last], initialMode) == Undefined
    ensures OptionLetter(last) != 'c' ==>
              ParseOptions([prog] + Flatten(opts) + [last], initialMode)
              == Accepted(Set(Settle(opts, Defaults), OptionLetter(last), None), SettleMode(opts, initialMode))
  {
    var argv := [prog] + Flatten(opts) + [last];
    AfterProgram(prog, Flatten(opts), [last], []);
    assert argv + [] == argv && [last] + [] == [last];
    assert argv[1..] == Flatten(opts) + [last];
    ScanReaches(argv, opts, [last], Defaults, initialMode);
    var i := 1 + 2 * |opts|;
    assert argv[i] == last && i + 1 == |argv|;
    ScanAtLast(argv, i, Settle(opts, Defaults), SettleMode(opts, initialMode));
  }

  /** The scan at a value option that is the last argument. */
  lemma ScanAtLast(argv: seq<string>, i: nat, cfg: Config, mode: Mode)
    requires i + 1 == |argv| && IsOption(argv[i]) && OptionLetter(argv[i]) in ValueLetters
    ensures OptionLetter(argv[i]) == 'c' ==> Scan(argv, i, cfg, mode) == Undefined
    ensures OptionLetter(argv[i]) != 'c' ==>
              Scan(argv, i, cfg, mode) == Accepted(Set(cfg, OptionLetter(argv[i]), None), mode)
  {
  }

  // ---------------------------------------------------------------------
  // main

  /** The two servers. */
  datatype Server = ForkingServer | SingleServer

  /** What main ends in. */
  datatype Launch =
    | Exit(status: int)                                    // before any server runs
    | Crash                                                // undefined behaviour while parsing
    | Served(server: Server, config: Config, status: int)  // a server ran and returned

  /** The server main starts: the single-connection server exactly when the
      mode is Single; a forking server for Forking and for Unknown alike. */
  function ServerFor(mode: Mode): (s: Server)
    ensures s == SingleServer <==> mode == Single
  {
    if mode == Forking then ForkingServer
    else if mode == Single then SingleServer
    else ForkingServer
  }

  /** main: parse the options; on failure exit with EXIT_FAILURE; otherwise
      canonicalise the root with `realpath` (NULL when it fails) and run the
      server for the mode, exiting with EXIT_FAILURE when it returns non-zero.
      `initialMode` is the uninitialised `mode` variable, `serverResult` what
      the server returns; the listening socket is not modelled. */
  function Main(argv: seq<string>, initialMode: Mode, realpath: string -> Option<string>, serverResult: int): (r: Launch)
    ensures r == Exit(1) <==> ParseOptions(argv, initialMode) == Rejected
    ensures r == Exit(0) <==> ParseOptions(argv, initialMode).Usage?
    ensures r == Crash <==> ParseOptions(argv, initialMode) == Undefined
    ensures r.Served? <==> ParseOptions(argv, initialMode).Accepted?
    ensures r.Served? ==>
              && r.server == ServerFor(ParseOptions(argv, initialMode).mode)
              && (r.status == 0 <==> serverResult == 0)
  {
    match ParseOptions(argv, initialMode)
    case Usage(status) => Exit(status)
    case Rejected => Exit(1)
    case Undefined => Crash
    case Accepted(cfg, mode) =>
      var root := if cfg.rootPath.Some? then realpath(cfg.rootPath.value) else None;
      Served(ServerFor(mode), cfg.(rootPath := root), if serverResult != 0 then 1 else 0)
  }

  /** `-c` with a name other than "forking" or "single" runs the forking server. */
  lemma UnknownModeForks(prog: string, name: string, initialMode: Mode, realpath: string -> Option<string>, serverResult: int)
    requires name != "forking" && name != "single"
    ensures Main([prog, "-c", name], initialMode, realpath, serverResult).Served?
    ensures Main([prog, "-c", name], initialMode, realpath, serverResult).server == ForkingServer
  {
    var opts := [Opt("-c", 'c', name)];
    assert opts[1..] == [];
    assert Flatten(opts) == ["-c", name] + Flatten([]);
    assert [prog] + Flatten(opts) == [prog, "-c", name];
    OptionsRoundTrip(prog, opts, initialMode);
    assert LastValue(opts, 'c') == Some(name);
  }

  /** Without `-c` the server depends on the uninitialised mode variable:
      the single server exactly when that garbage happens to be Single. */
  lemma ModeWithoutOption(prog: string, operand: string, initialMode: Mode, realpath: string -> Option<string>, serverResult: int)
    requires !IsOption(operand)
    ensures Main([prog, operand], initialMode, realpath, serverResult).Served?
    ensures Main([prog, operand], initialMode, realpath, serverResult).server
            == if initialMode == Single then SingleServer else ForkingServer
  {
  }
}

=== FILE: request.dfy ===
/** Parsing of an HTTP request as request.c does it: the request line is
    split with strtok on spaces into method and target, the target on its
    first '?' into URI and query, and every following line up to a blank one
    is split into a header name and value. The connection is given as the
    sequence of lines fgets would return from it. */
module Requests {
  import opened Base
  import opened Text
  import opened Utils

  datatype Header = Header(name: string, value: string)

  /** What the request line yields: method, URI and optional query. */
  datatype RequestLine = RequestLine(httpMethod: string, uri: string, query: Option<string>)

  /** The parsed parts of a Request (the connection and peer fields are I/O). */
  datatype Request = Request(httpMethod: string, uri: string, query: Option<string>, headers: seq<Header>)

  datatype ParseError =
    | NoRequestLine  // nothing could be read, or the line read is empty
    | NoMethod       // the request line holds no token
    | NoUri          // no second token, or it does not begin with '/'
    | NoHeaderValue  // nothing but blanks after the header name token
    | NoHeaderName   // no name before the ':'
    | ReadPastEnd    // skip_nonwhitespace as written ran off the end of the line

  const Space: set<char> := {' '}
  const QueryMark: set<char> := {'?'}
  const Colon: set<char> := {':'}

  /** The properties every parsed request line has. */
  predicate WellFormedLine(rl: RequestLine) {
    && rl.httpMethod != [] && ' ' !in rl.httpMethod
    && rl.uri != [] && rl.uri[0] == '/' && ' ' !in rl.uri && '?' !in rl.uri
    && (rl.query.Some? ==> rl.query.value != [] && ' ' !in rl.query.value)
  }

  /** The request target the line was split from: URI, then '?' and the query. */
  function Target(rl: RequestLine): string {
    rl.uri + if rl.query.Some? then "?" + rl.query.value else ""
  }

  // ---------------------------------------------------------------------
  // Request line

  /** parse_request_method on the result of one fgets call (None for NULL):
      an empty read fails, anything else is chomped and split. */
  function ParseRequestMethod(read: Option<string>): (r: Result<RequestLine, ParseError>)
    ensures r == Err(NoRequestLine) <==> read.None? || read.value == []
    ensures r.Ok? ==> WellFormedLine(r.value)
  {
    if read.None? || read.value == [] then Err(NoRequestLine)
    else ParseRequestLine(Chomp(read.value))
  }

  /** The chomped request line split as parse_request_method splits it:
      strtok(" ") gives the method and the target; the rest of the line (the
      HTTP version) is never looked at. */
  function ParseRequestLine(line: string): (r: Result<RequestLine, ParseError>)
    ensures r.Err? ==> r.error == NoMethod || r.error == NoUri
    ensures r == Err(NoMethod) <==> forall k :: 0 <= k < |line| ==> line[k] == ' '
    ensures r.Ok? ==> WellFormedLine(r.value)
  {
    match Strtok(line, 0, Space)
    case None => Err(NoMethod)
    case Some(m) =>
      SpaceFreeToken(line, 0, m);
      match Strtok(line, Resume(line, m), Space)
      case None => Err(NoUri)
      case Some(u) =>
        SpaceFreeToken(line, Resume(line, m), u);
        var target := TokenText(line, u);
        if target[0] != '/' then Err(NoUri)
        else
          var split := SplitTarget(target);
          Ok(RequestLine(TokenText(line, m), split.0, split.1))
  }

  /** A token strtok(" ") returns is not empty and holds no space. */
  lemma SpaceFreeToken(line: string, i: nat, t: Span)
    requires i <= |line| && Strtok(line, i, Space) == Some(t)
    ensures TokenText(line, t) != [] && ' ' !in TokenText(line, t)
  {
    var x := TokenText(line, t);
    assert forall k :: 0 <= k < |x| ==> x[k] == line[t.start + k];
  }

  /** A line with a method token is accepted exactly when a second token
      follows and begins with '/'; the method is the first token and the
      target (less a '?' with nothing after it) the second. */
  lemma RequestLineTokens(line: string, m: Span)
    requires Strtok(line, 0, Space) == Some(m)
    ensures var u := Strtok(line, Resume(line, m), Space);
            var r := ParseRequestLine(line);
            && (r.Ok? <==> u.Some? && line[u.value.start] == '/')
            && (r.Ok? ==> r.value.httpMethod == TokenText(line, m)
                          && (TokenText(line, u.value) == Target(r.value)
                              || TokenText(line, u.value) == Target(r.value) + "?"))
  {
    var u := Strtok(line, Resume(line, m), Space);
    if u.Some? && line[u.value.start] == '/' {
      TargetAccepted(line, m, u.value);
    } else {
      TargetRefused(line, m, u);
    }
  }

  /** A second token beginning with '/' is the target of an accepted line. */
  lemma TargetAccepted(line: string, m: Span, u: Span)
    requires Strtok(line, 0, Space) == Some(m) && Strtok(line, Resume(line, m), Space) == Some(u)
    requires line[u.start] == '/'
    ensures var r := ParseRequestLine(line);
            && r.Ok? && r.value.httpMethod == TokenText(line, m)
            && (TokenText(line, u) == Target(r.value) || TokenText(line, u) == Target(r.value) + "?")
  {
    var target := TokenText(line, u);
    assert target != [] && target[0] == '/' && ' ' !in target by {
      SpaceFreeToken(line, Resume(line, m), u);
    }
    var split := SplitTarget(target);
    var rl := RequestLine(TokenText(line, m), split.0, split.1);
    assert ParseRequestLine(line) == Ok(rl);
    SplitTargetBack(TokenText(line, m), target);
  }

  /** Put back together, the parts SplitTarget gives are the target, less a
      '?' with nothing after it. */
  lemma SplitTargetBack(httpMethod: string, target: string)
    requires target != [] && target[0] == '/' && ' ' !in target
    ensures var split := SplitTarget(target);
            var rl := RequestLine(httpMethod, split.0, split.1);
            target == Target(rl) || target == Target(rl) + "?"
  {
    var split := SplitTarget(target);
    if split.1.Some? {
      assert Target(RequestLine(httpMethod, split.0, split.1)) == split.0 + "?" + split.1.value;
    } else {
      assert Target(RequestLine(httpMethod, split.0, split.1)) == split.0 + "";
    }
  }

  /** Without a second token, or with one not beginning with '/', the line
      is refused for want of a URI. */
  lemma TargetRefused(line: string, m: Span, u: Option<Span>)
    requires Strtok(line, 0, Space) == Some(m) && Strtok(line, Resume(line, m), Space) == u
    requires u.None? || line[u.value.start] != '/'
    ensures ParseRequestLine(line) == Err(NoUri)
  {
    if u.Some? {
      assert TokenText(line, u.value)[0] == line[u.value.start];
    }
  }

  /** strtok(target, "?") then strtok(NULL, " "), both within the target
      (strtok has written a NUL after it): the URI is the target up to its
      first '?', the query everything after that '?', absent when nothing
      follows it. */
  function SplitTarget(target: string): (r: (string, Option<string>))
    requires target != [] && target[0] == '/' && ' ' !in target
    ensures r.0 != [] && r.0[0] == '/' && '?' !in r.0
    ensures r.1.None? ==> target == r.0 || target == r.0 + "?"
    ensures r.1.Some? ==> r.1.value != [] && target == r.0 + "?" + r.1.value
  {
    // a token exists: the target begins with '/', which is not a delimiter
    var p := Strtok(target, 0, QueryMark).value;
    var q := Strtok(target, Resume(target, p), Space);
    (TokenText(target, p), if q.Some? then Some(TokenText(target, q.value)) else None)
  }

  /** The target of a well-formed request line splits back into its URI and query. */
  lemma SplitTargetOf(rl: RequestLine)
    requires WellFormedLine(rl)
    ensures SplitTarget(Target(rl)) == (rl.uri, rl.query)
  {
    var t := Target(rl);
    UriToken(rl.uri, t);
    if rl.query.Some? {
      QueryToken(rl.uri, rl.query.value, t);
    }
  }

  /** strtok(target, "?") stops at the end of the URI. */
  lemma UriToken(uri: string, t: string)
    requires uri != [] && '?' !in uri && uri <= t
    requires |uri| < |t| ==> t[|uri|] == '?'
    ensures Strtok(t, 0, QueryMark) == Some(Span(0, |uri|))
    ensures TokenText(t, Span(0, |uri|)) == uri
  {
    StrtokIs(t, 0, QueryMark, 0, |uri|);
  }

  /** strtok(NULL, " ") after the '?' takes the whole query. */
  lemma QueryToken(uri: string, qs: string, t: string)
    requires qs != [] && ' ' !in qs && t == uri + "?" + qs
    ensures Strtok(t, |uri| + 1, Space) == Some(Span(|uri| + 1, |t|))
    ensures TokenText(t, Span(|uri| + 1, |t|)) == qs
  {
    var n := |uri| + 1;
    assert t[n..] == qs;
    assert forall k :: n <= k < |t| ==> t[k] == qs[k - n];
    StrtokIs(t, n, Space, n, |t|);
  }

  /** A request line: method, one space, target, and either the end of the
      line or a space and whatever follows (the version). The method is the
      first token, the URI the target up to its first '?', the query all of
      the target after it. */
  lemma SplitRequestLine(rl: RequestLine, rest: string)
    requires WellFormedLine(rl)
    requires rest == [] || rest[0] == ' '
    ensures ParseRequestLine(rl.httpMethod + " " + Target(rl) + rest) == Ok(rl)
  {
    var m, t := rl.httpMethod, Target(rl);
    var line := m + " " + t + rest;
    MethodToken(m, line);
    TargetToken(m, t, rest, line);
    SplitTargetOf(rl);
  }

  /** strtok(line, " ") returns the method. */
  lemma MethodToken(m: string, line: string)
    requires m != [] && ' ' !in m && m + " " <= line
    ensures Strtok(line, 0, Space) == Some(Span(0, |m|))
    ensures TokenText(line, Span(0, |m|)) == m
    ensures Resume(line, Span(0, |m|)) == |m| + 1
  {
    assert line[|m|] == (m + " ")[|m|];
    StrtokIs(line, 0, Space, 0, |m|);
  }

  /** strtok(NULL, " ") after the method returns the whole target. */
  lemma TargetToken(m: string, t: string, rest: string, line: string)
    requires t != [] && ' ' !in t && (rest == [] || rest[0] == ' ')
    requires line == m + " " + t + rest
    ensures Strtok(line, |m| + 1, Space) == Some(Span(|m| + 1, |m| + 1 + |t|))
    ensures TokenText(line, Span(|m| + 1, |m| + 1 + |t|)) == t
  {
    var n := |m| + 1;
    var e := n + |t|;
    assert line[n..e] == t;
    assert forall k :: n <= k < e ==> line[k] == t[k - n];
    if e < |line| {
      assert line[e] == rest[0];
    }
    StrtokIs(line, n, Space, n, e);
  }

  /** The request line as a client sends it, terminated by CRLF; `version`
      (possibly empty) follows the target after one space. */
  function FormatRequestLine(rl: RequestLine, version: string): string {
    rl.httpMethod + " " + Target(rl) + " " + version + "\r\n"
  }

  /** Parsing a formatted request line recovers method, URI and query,
      whatever the version text is. */
  lemma RequestLineRoundTrip(rl: RequestLine, version: string)
    requires WellFormedLine(rl)
    ensures ParseRequestMethod(Some(FormatRequestLine(rl, version))) == Ok(rl)
  {
    var p := rl.httpMethod + " " + Target(rl);
    var s := version + "\r\n";
    assert FormatRequestLine(rl, version) == (p + " ") + s;
    ChompAppend(p + " ", s);
    var rest := " " + Chomp(s);
    assert (p + " ") + Chomp(s) == p + rest;
    SplitRequestLine(rl, rest);
  }

  /** A request line without a version is accepted the same way. */
  lemma VersionNotRequired(rl: RequestLine)
    requires WellFormedLine(rl)
    requires !IsLineEnd(Target(rl)[|Target(rl)| - 1])
    ensures ParseRequestMethod(Some(rl.httpMethod + " " + Target(rl) + "\r\n")) == Ok(rl)
  {
    var line := rl.httpMethod + " " + Target(rl);
    ChompCrlf(line);
    SplitRequestLine(rl, []);
    assert line + [] == line;
  }

  /** A request line holding a method and nothing after it is refused for
      want of a URI. */
  lemma MethodOnlyRefused(m: string)
    requires m != [] && ' ' !in m && !IsLineEnd(m[|m| - 1])
    ensures ParseRequestMethod(Some(m + "\r\n")) == Err(NoUri)
  {
    ChompCrlf(m);
    StrtokIs(m, 0, Space, 0, |m|);
  }

  /** A target that does not begin with '/' is refused. */
  lemma TargetWithoutSlashRefused(m: string, t: string, rest: string)
    requires m != [] && ' ' !in m
    requires t != [] && t[0] != ' ' && t[0] != '/'
    ensures ParseRequestLine(m + " " + t + rest) == Err(NoUri)
  {
    var line := m + " " + t + rest;
    StrtokIs(line, 0, Space, 0, |m|);
    assert Resume(line, Span(0, |m|)) == |m| + 1;
    assert line[|m| + 1] == t[0];
    SkipWhileIs(line, |m| + 1, Space, |m| + 1);
  }

  // ---------------------------------------------------------------------
  // Headers

  /** The rest of the loop body once the value pointer is known (`value`,
      a tail of the chomped line): an empty value fails; the name is
      strtok(line, ":"). That strtok writes a NUL over the ':' ending the
      name, and the value pointer into the same buffer sees it: the value
      is cut there when that ':' lies inside it. */
  function SplitHeader(line: string, value: string): (r: Result<Header, ParseError>)
    requires IsSuffix(value, line)
    ensures r.Err? ==> r.error == NoHeaderValue || r.error == NoHeaderName
    ensures r == Err(NoHeaderValue) <==> value == []
    ensures r == Err(NoHeaderName) <==> value != [] && forall k :: 0 <= k < |line| ==> line[k] == ':'
    ensures r.Ok? ==> r.value.name != [] && ':' !in r.value.name && r.value.value <= value
    ensures r.Ok? && line[0] != ':' ==>
              r.value.name <= line && (|r.value.name| == |line| || line[|r.value.name|] == ':')
    ensures r.Ok? && line[0] != ':' ==>
              var v := |line| - |value|;
              && (':' in line[..v] ==> r.value.value == value)
              && (':' !in line[..v] ==> r.value.value == value[..SkipUntil(value, 0, Colon)])
  {
    if value == [] then Err(NoHeaderValue)
    else
      match Strtok(line, 0, Colon)
      case None => Err(NoHeaderName)
      case Some(n) =>
        var v := |line| - |value|;
        Ok(Header(TokenText(line, n), if v <= n.end < |line| then line[v..n.end] else value))
  }

  /** One header line (already chomped), as the body of the loop in
      parse_request_headers with skip_nonwhitespace as documented: the value
      starts after the first whitespace and the blanks after it. A line with
      a value always holds whitespace, so it never consists of colons alone:
      the "no name" failure cannot happen. */
  function ParseHeaderLine(line: string): (r: Result<Header, ParseError>)
    ensures r.Err? ==> r.error == NoHeaderValue
    ensures r.Ok? ==> line != [] && r.value.name != [] && ':' !in r.value.name
    ensures r.Ok? ==> r.value.value <= SkipWhitespace(SkipNonwhitespace(Some(line))).value
    ensures r.Ok? && line[0] != ':' ==>
              r.value.name <= line && (|r.value.name| == |line| || line[|r.value.name|] == ':')
  {
    var value := SkipWhitespace(SkipNonwhitespace(Some(line))).value;
    ValueAfterWhitespace(line);
    SplitHeader(line, value)
  }

  /** A value found by the documented skips lies after a whitespace
      character of the line, so the line is not all colons. */
  lemma ValueAfterWhitespace(line: string)
    ensures var value := SkipWhitespace(SkipNonwhitespace(Some(line))).value;
            && IsSuffix(value, line)
            && (value != [] ==> exists k :: 0 <= k < |line| && line[k] != ':')
  {
    var a := SkipNonwhitespace(Some(line)).value;
    var value := SkipWhitespace(Some(a)).value;
    if value != [] {
      assert a != [] && a[0] in Whitespace;
      assert line[|line| - |a|] == a[0];
    }
  }

  /** strtok skips leading colons: `: x` is accepted, named " x". */
  lemma LeadingColonAccepted()
    ensures ParseHeaderLine(": x") == Ok(Header(" x", "x"))
  {
    var line := ": x";
    SkipUntilIs(line, 0, Whitespace, 1);
    assert SkipNonwhitespace(Some(line)) == Some(" x");
    SkipWhileIs(" x", 0, Blanks, 1);
    assert SkipWhitespace(Some(" x")) == Some("x");
    StrtokIs(line, 0, Colon, 1, 3);
    assert TokenText(line, Span(1, 3)) == " x";
    assert SplitHeader(line, "x") == Ok(Header(" x", "x"));
  }

  /** As written, a line of colons only gets the "no name" error: the
      value pointer stays at the start of the line and strtok finds no name.
      The loop stops at that line. */
  lemma ColonsOnlyNoNameAsWritten(line: string)
    requires line != [] && forall k :: 0 <= k < |line| ==> line[k] == ':'
    ensures ParseHeaderLineAsWritten(line) == Err(NoHeaderName)
    ensures ParseHeadersAsWritten([line + "\r\n"], []) == Err(NoHeaderName)
  {
    assert ParseHeaderLineAsWritten(line) == Err(NoHeaderName) by {
      AsWrittenStartsAtName(line);
    }
    assert Chomp([line + "\r\n"][0]) == line by { ChompCrlf(line); }
    AsWrittenFails([line + "\r\n"], [], NoHeaderName);
  }

  /** A line without ':' is named by the whole line. With the documented
      skip it needs a value after whitespace; as written any line that is
      not all whitespace is accepted, its value being the line too. */
  lemma NoColonWholeName()
    ensures ParseHeaderLine("Host x") == Ok(Header("Host x", "x"))
    ensures ParseHeaderLine("Host") == Err(NoHeaderValue)
    ensures ParseHeaderLineAsWritten("Host") == Ok(Header("Host", "Host"))
  {
    SkipUntilIs("Host x", 0, Whitespace, 4);
    assert "Host x"[4..] == " x";
    SkipWhileIs(" x", 0, Blanks, 1);
    assert " x"[1..] == "x";
    StrtokIs("Host x", 0, Colon, 0, 6);
    assert TokenText("Host x", Span(0, 6)) == "Host x";
    SkipUntilIs("Host", 0, Whitespace, 4);
    SkipWhileIs("Host", 0, Whitespace, 0);
    SkipWhileIs("Host", 0, Blanks, 0);
    assert "Host"[0..] == "Host";
    StrtokIs("Host", 0, Colon, 0, 4);
    assert TokenText("Host", Span(0, 4)) == "Host";
  }

  /** As written, a line that begins with whitespace is still named by the
      whole line, but the skip moves past the leading blank, so its value
      is not its name. */
  lemma LeadingBlankAsWritten()
    ensures ParseHeaderLineAsWritten(" Host") == Ok(Header(" Host", "Host"))
  {
    SkipWhileIs(" Host", 0, Whitespace, 1);
    assert " Host"[1..] == "Host";
    SkipWhileIs("Host", 0, Blanks, 0);
    assert "Host"[0..] == "Host";
    StrtokIs(" Host", 0, Colon, 0, 5);
    assert TokenText(" Host", Span(0, 5)) == " Host";
    assert SplitHeader(" Host", "Host") == Ok(Header(" Host", "Host"));
  }

  /** One header line with skip_nonwhitespace as written (utils.c:155-159):
      the value pointer does not move past the name, so the value is the
      whole line, cut by the NUL strtok writes after the name. A line of
      whitespace only (the empty line included) is read past its end. */
  function ParseHeaderLineAsWritten(line: string): (r: Result<Header, ParseError>)
    ensures r == Err(ReadPastEnd) <==> forall k :: 0 <= k < |line| ==> line[k] in Whitespace
    ensures line != [] && line[0] !in Whitespace && line[0] != ':' ==>
              r.Ok? && r.value.value == r.value.name
  {
    match SkipNonwhitespaceAsWritten(line)
    case None => Err(ReadPastEnd)
    case Some(a) =>
      var value := SkipWhitespace(Some(a)).value;
      assert line != [] && line[0] !in Whitespace && line[0] != ':' ==>
               SplitHeader(line, value).Ok? && SplitHeader(line, value).value.value == SplitHeader(line, value).value.name by {
        AsWrittenStartsAtName(line);
        if line != [] && line[0] !in Whitespace && line[0] != ':' {
          WholeLineCutAtName(line);
        }
      }
      SplitHeader(line, value)
  }

  /** With the value pointer at the start of the line, the NUL that
      strtok writes after the name ends the value too: the value is the name. */
  lemma WholeLineCutAtName(line: string)
    requires line != [] && line[0] != ':'
    ensures SplitHeader(line, line).Ok? && SplitHeader(line, line).value.value == SplitHeader(line, line).value.name
  {
  }

  /** On a line that begins with a name character neither written skip
      moves: the value pointer stays at the start of the line. */
  lemma AsWrittenStartsAtName(line: string)
    ensures line != [] && line[0] !in Whitespace ==>
              SkipNonwhitespaceAsWritten(line) == Some(line) && SkipWhitespace(Some(line)) == Some(line)
  {
    if line != [] && line[0] !in Whitespace {
      SkipWhileIs(line, 0, Whitespace, 0);
      SkipWhileIs(line, 0, Blanks, 0);
    }
  }

  /** A header line fails for want of a value exactly when nothing but
      spaces and tabs follows its first whitespace character (or it has none). */
  lemma NoValueExactly(line: string)
    ensures ParseHeaderLine(line) == Err(NoHeaderValue)
            <==> forall k, j :: 0 <= k <= j < |line| && line[k] in Whitespace ==> line[j] in Blanks
  {
    var a := SkipNonwhitespace(Some(line)).value;
    var value := SkipWhitespace(Some(a)).value;
    var v0 := |line| - |a|;
    assert forall j :: v0 <= j < |line| ==> line[j] == a[j - v0];
    if value == [] {
      assert forall j :: v0 <= j < |line| ==> line[j] in Blanks by {
        forall j | v0 <= j < |line|
          ensures line[j] in Blanks
        {
          assert a[j - v0] in Blanks;
        }
      }
    } else {
      var w := |line| - |value|;
      assert a != [];
      assert line[v0] in Whitespace;
      assert line[w] == value[0] && line[w] !in Blanks;
    }
  }

  /** The properties of a header a client can send and get back intact. */
  predicate WellFormedHeader(h: Header) {
    && h.name != [] && ':' !in h.name
    && (forall k :: 0 <= k < |h.name| ==> h.name[k] !in Whitespace)
    && h.value != [] && h.value[0] !in Blanks && !IsLineEnd(h.value[|h.value| - 1])
  }

  function FormatHeader(h: Header): string {
    h.name + ": " + h.value + "\r\n"
  }

  /** A header `Name: value` is split back into its name and value. */
  lemma HeaderLineRoundTrip(h: Header)
    requires WellFormedHeader(h)
    ensures ParseHeaderLine(h.name + ": " + h.value) == Ok(h)
  {
    HeaderValueFound(h);
    HeaderNameFound(h);
  }

  /** The value pointer of a `Name: value` line lands on the value. */
  lemma HeaderValueFound(h: Header)
    requires WellFormedHeader(h)
    ensures SkipWhitespace(SkipNonwhitespace(Some(h.name + ": " + h.value))).value == h.value
  {
    var line := h.name + ": " + h.value;
    var n := |h.name|;
    assert line[n] == ':' && line[n + 1] == ' ';
    assert forall k :: 0 <= k < n ==> line[k] == h.name[k];
    SkipUntilIs(line, 0, Whitespace, n + 1);
    var after := line[n + 1..];
    assert after == " " + h.value;
    SkipWhileIs(after, 0, Blanks, 1);
  }

  /** strtok(line, ":") on a `Name: value` line returns the name. */
  lemma HeaderNameFound(h: Header)
    requires WellFormedHeader(h)
    ensures Strtok(h.name + ": " + h.value, 0, Colon) == Some(Span(0, |h.name|))
    ensures TokenText(h.name + ": " + h.value, Span(0, |h.name|)) == h.name
  {
    var line := h.name + ": " + h.value;
    var n := |h.name|;
    assert line[n] == ':';
    assert forall k :: 0 <= k < n ==> line[k] == h.name[k];
    StrtokIs(line, 0, Colon, 0, n);
  }

  /** A parser for one chomped header line. */
  type LineParser = string -> Result<Header, ParseError>

  /** The loop of parse_request_headers as its doc pseudo-code describes it,
      for a given line parser: headers are read until the end of the stream
      or a line that is empty once chomped, and each is appended to the list
      in wire order. The first line that fails to parse fails the whole. */
  function ParseHeadersWith(lines: seq<string>, parse: LineParser): (r: Result<seq<Header>, ParseError>)
    ensures r.Ok? ==> |r.value| <= |lines|
  {
    if lines == [] || Chomp(lines[0]) == [] then Ok([])
    else
      match parse(Chomp(lines[0]))
      case Err(e) => Err(e)
      case Ok(h) =>
        match ParseHeadersWith(lines[1..], parse)
        case Err(e) => Err(e)
        case Ok(hs) => Ok([h] + hs)
  }

  /** parse_request_headers: the loop above over `ParseHeaderLine`. It fails
      only for the reasons a header line fails. */
  function ParseHeaders(lines: seq<string>): (r: Result<seq<Header>, ParseError>)
    ensures r.Ok? ==> |r.value| <= |lines|
    ensures r.Err? ==> r.error == NoHeaderValue
  {
    HeaderErrorFromLine(lines, ParseHeaderLine);
    ParseHeadersWith(lines, ParseHeaderLine)
  }

  /** A failed header section fails with the error of one of its lines. */
  lemma HeaderErrorFromLine(lines: seq<string>, parse: LineParser)
    ensures ParseHeadersWith(lines, parse).Err? ==>
              exists i :: 0 <= i < |lines| && parse(Chomp(lines[i])) == Err(ParseHeadersWith(lines, parse).error)
  {
    if ParseHeadersWith(lines, parse).Err? {
      var i := HeaderErrorLocated(lines, parse);
    }
  }

  /** Header i comes from line i, and the header section ends at the end of
      the stream or at a blank line. */
  lemma {:induction false} HeadersInWireOrder(lines: seq<string>, parse: LineParser)
    ensures ParseHeadersWith(lines, parse).Ok? ==>
              var hs := ParseHeadersWith(lines, parse).value;
              && (|hs| == |lines| || Chomp(lines[|hs|]) == [])
              && forall i :: 0 <= i < |hs| ==> Chomp(lines[i]) != [] && parse(Chomp(lines[i])) == Ok(hs[i])
  {
    if lines != [] && Chomp(lines[0]) != [] && parse(Chomp(lines[0])).Ok? && ParseHeadersWith(lines[1..], parse).Ok? {
      HeadersInWireOrder(lines[1..], parse);
      var hs := ParseHeadersWith(lines, parse).value;
      var tl := ParseHeadersWith(lines[1..], parse).value;
      assert hs == [parse(Chomp(lines[0])).value] + tl;
      assert |hs| == |lines| || lines[|hs|] == lines[1..][|tl|];
      forall i | 0 <= i < |hs|
        ensures Chomp(lines[i]) != [] && parse(Chomp(lines[i])) == Ok(hs[i])
      {
        if i > 0 {
          assert lines[i] == lines[1..][i - 1];
          assert hs[i] == tl[i - 1];
        }
      }
    }
  }

  /** A failed header section fails at the first line that does not parse:
      every line before it is a header, none of the lines up to it is blank,
      and its own parse gives the error. */
  lemma {:induction false} HeaderErrorLocated(lines: seq<string>, parse: LineParser) returns (i: nat)
    requires ParseHeadersWith(lines, parse).Err?
    ensures i < |lines| && parse(Chomp(lines[i])) == Err(ParseHeadersWith(lines, parse).error)
    ensures forall j :: 0 <= j <= i ==> Chomp(lines[j]) != []
    ensures forall j :: 0 <= j < i ==> parse(Chomp(lines[j])).Ok?
  {
    if parse(Chomp(lines[0])).Err? {
      i := 0;
    } else {
      var k := HeaderErrorLocated(lines[1..], parse);
      i := k + 1;
      assert lines[i] == lines[1..][k];
      forall j | 0 <= j <= i
        ensures Chomp(lines[j]) != []
        ensures j < i ==> parse(Chomp(lines[j])).Ok?
      {
        if j > 0 {
          assert lines[j] == lines[1..][j - 1];
        }
      }
    }
  }

  /** One more header line in front of a parsed header section. */
  lemma ParseHeadersStep(lines: seq<string>, parse: LineParser, h: Header, hs: seq<Header>)
    requires lines != [] && Chomp(lines[0]) != []
    requires parse(Chomp(lines[0])) == Ok(h)
    requires ParseHeadersWith(lines[1..], parse) == Ok(hs)
    ensures ParseHeadersWith(lines, parse) == Ok([h] + hs)
  {
  }

  function FormatHeaders(hs: seq<Header>): seq<string> {
    if hs == [] then [] else [FormatHeader(hs[0])] + FormatHeaders(hs[1..])
  }

  /** The first formatted header line, and the lines after it. */
  lemma FormatHeadersHead(hs: seq<Header>, tail: seq<string>)
    requires hs != []
    ensures (FormatHeaders(hs) + tail)[0] == FormatHeader(hs[0])
    ensures (FormatHeaders(hs) + tail)[1..] == FormatHeaders(hs[1..]) + tail
  {
    var fs := FormatHeaders(hs);
    assert fs == [FormatHeader(hs[0])] + FormatHeaders(hs[1..]);
    DropFirst(fs, tail);
  }

  /** A formatted header line chomps to the line its parser accepts. */
  lemma FormattedHeaderParses(h: Header)
    requires WellFormedHeader(h)
    ensures Chomp(FormatHeader(h)) == h.name + ": " + h.value != []
    ensures ParseHeaderLine(Chomp(FormatHeader(h))) == Ok(h)
  {
    var hl := h.name + ": " + h.value;
    assert FormatHeader(h) == hl + "\r\n";
    assert hl[|hl| - 1] == h.value[|h.value| - 1];
    ChompCrlf(hl);
    HeaderLineRoundTrip(h);
  }

  /** The end of a header section: the end of the stream or a blank line. */
  predicate EndsSection(tail: seq<string>) {
    tail == [] || Chomp(tail[0]) == []
  }

  /** Header lines that each parse back to their header, followed by the end
      of the section, are parsed back in order. */
  lemma {:induction false} HeadersRoundTripWith(hs: seq<Header>, tail: seq<string>, parse: LineParser)
    requires EndsSection(tail)
    requires forall i :: 0 <= i < |hs| ==>
               Chomp(FormatHeader(hs[i])) != [] && parse(Chomp(FormatHeader(hs[i]))) == Ok(hs[i])
    ensures ParseHeadersWith(FormatHeaders(hs) + tail, parse) == Ok(hs)
    decreases |hs|
  {
    var lines := FormatHeaders(hs) + tail;
    if hs == [] {
      assert lines == tail;
    } else {
      FormatHeadersHead(hs, tail);
      assert forall i :: 0 <= i < |hs[1..]| ==> hs[1..][i] == hs[i + 1];
      HeadersRoundTripWith(hs[1..], tail, parse);
      ParseHeadersStep(lines, parse, hs[0], hs[1..]);
      assert [hs[0]] + hs[1..] == hs;
    }
  }

  /** Well-formed headers written one per line and followed by the end of
      the section (a blank line or the end of the stream) are parsed back in
      order; lines after a blank one are not read. */
  lemma HeadersRoundTrip(hs: seq<Header>, tail: seq<string>)
    requires forall i :: 0 <= i < |hs| ==> WellFormedHeader(hs[i])
    requires EndsSection(tail)
    ensures ParseHeaders(FormatHeaders(hs) + tail) == Ok(hs)
  {
    forall i | 0 <= i < |hs|
      ensures Chomp(FormatHeader(hs[i])) != [] && ParseHeaderLine(Chomp(FormatHeader(hs[i]))) == Ok(hs[i])
    {
      FormattedHeaderParses(hs[i]);
    }
    HeadersRoundTripWith(hs, tail, ParseHeaderLine);
  }

  /** The loop of parse_request_headers as written, for a given line
      parser: it stops only at the end of the stream or at a line that is
      empty BEFORE chomp (fgets never returns one), so a CRLF blank line is
      parsed as a header; and only the first header is linked into the list
      (`curr = curr->next` drops the rest). `list` is the list so far:
      empty, or the first header. */
  function HeaderLoopAsWritten(lines: seq<string>, list: seq<Header>, parse: LineParser): (r: Result<seq<Header>, ParseError>)
    requires |list| <= 1
    ensures r.Ok? ==> |r.value| <= 1
    ensures r.Ok? && list != [] ==> r.value == list
  {
    if lines == [] || lines[0] == [] then Ok(list)
    else
      match parse(Chomp(lines[0]))
      case Err(e) => Err(e)
      case Ok(h) =>
        HeaderLoopAsWritten(lines[1..], if list == [] then [h] else list, parse)
  }

  /** parse_request_headers as written: the loop above with each line
      parsed by skip_nonwhitespace as written (`ParseHeaderLineAsWritten`). */
  function ParseHeadersAsWritten(lines: seq<string>, list: seq<Header>): (r: Result<seq<Header>, ParseError>)
    requires |list| <= 1
    ensures r.Ok? ==> |r.value| <= 1
    ensures r.Ok? && list != [] ==> r.value == list
  {
    HeaderLoopAsWritten(lines, list, ParseHeaderLineAsWritten)
  }

  /** One header line taken by the written loop. */
  lemma AsWrittenStep(lines: seq<string>, list: seq<Header>, h: Header)
    requires |list| <= 1 && lines != [] && lines[0] != []
    requires ParseHeaderLineAsWritten(Chomp(lines[0])) == Ok(h)
    ensures ParseHeadersAsWritten(lines, list)
            == ParseHeadersAsWritten(lines[1..], if list == [] then [h] else list)
  {
    LoopStep(lines, list, ParseHeaderLineAsWritten, Ok(h));
  }

  /** A header line the written loop cannot parse ends it with that error. */
  lemma AsWrittenFails(lines: seq<string>, list: seq<Header>, e: ParseError)
    requires |list| <= 1 && lines != [] && lines[0] != []
    requires ParseHeaderLineAsWritten(Chomp(lines[0])) == Err(e)
    ensures ParseHeadersAsWritten(lines, list) == Err(e)
  {
    LoopStep(lines, list, ParseHeaderLineAsWritten, Err(e));
  }

  /** One line of the written loop, for any line parser. */
  lemma LoopStep(lines: seq<string>, list: seq<Header>, parse: LineParser, p: Result<Header, ParseError>)
    requires |list| <= 1 && lines != [] && lines[0] != [] && parse(Chomp(lines[0])) == p
    ensures p.Err? ==> HeaderLoopAsWritten(lines, list, parse) == Err(p.error)
    ensures p.Ok? ==> HeaderLoopAsWritten(lines, list, parse)
                      == HeaderLoopAsWritten(lines[1..], if list == [] then [p.value] else list, parse)
  {
  }

  /** The written loop ends at the end of the stream. */
  lemma LoopEnd(list: seq<Header>, parse: LineParser)
    requires |list| <= 1
    ensures HeaderLoopAsWritten([], list, parse) == Ok(list)
  {
  }

  /** The terminating CRLF line chomps to the empty string, which the
      written skip_nonwhitespace reads past the end of. */
  lemma CrlfReadsPastEnd()
    ensures Chomp("\r\n") == []
    ensures ParseHeaderLineAsWritten(Chomp("\r\n")) == Err(ReadPastEnd)
  {
    ChompCrlf([]);
    assert [] + "\r\n" == "\r\n";
  }

  /** As written, a `Name: value` line stores its name as its value too:
      the value pointer stays at the start of the line and the NUL strtok
      writes over the ':' ends it after the name. */
  lemma {:induction false} AsWrittenValueIsName(h: Header)
    requires WellFormedHeader(h)
    ensures ParseHeaderLineAsWritten(Chomp(FormatHeader(h))) == Ok(Header(h.name, h.name))
  {
    FormattedHeaderParses(h);
    var line := h.name + ": " + h.value;
    HeaderNameFound(h);
    SkipWhileIs(line, 0, Whitespace, 0);
    SkipWhileIs(line, 0, Blanks, 0);
    assert line[0] == h.name[0];
    assert line[0..|h.name|] == h.name;
  }

  /** A request's terminating CRLF line does not end the written loop: it
      is not empty before chomp, so it reaches the header parser, which reads
      past its end. (The documented loop stops there: `HeadersRoundTrip`.) */
  lemma {:induction false} BlankLineReachesParser(h: Header)
    requires WellFormedHeader(h)
    ensures ParseHeadersAsWritten([FormatHeader(h), "\r\n"], []) == Err(ReadPastEnd)
  {
    var lines := [FormatHeader(h), "\r\n"];
    AsWrittenValueIsName(h);
    CrlfReadsPastEnd();
    AsWrittenStep(lines, [], Header(h.name, h.name));
    AsWrittenFails(lines[1..], [Header(h.name, h.name)], ReadPastEnd);
  }

  lemma BlankLineCounterexample()
    ensures ParseHeadersAsWritten(["Host: a\r\n", "\r\n"], []) == Err(ReadPastEnd)
    ensures ParseHeaders(["Host: a\r\n", "\r\n"]) == Ok([Header("Host", "a")])
  {
    var h := Header("Host", "a");
    assert FormatHeader(h) == "Host: a\r\n";
    BlankLineReachesParser(h);
    OneHeaderThenBlank(h);
  }

  /** Of two header lines the written loop keeps only the first header,
      whose value is its name. (The documented loop keeps both, with their
      values: `HeadersRoundTrip`.) */
  lemma {:induction false} SecondHeaderDropped(a: Header, b: Header)
    requires WellFormedHeader(a) && WellFormedHeader(b)
    ensures ParseHeadersAsWritten([FormatHeader(a), FormatHeader(b)], []) == Ok([Header(a.name, a.name)])
  {
    var lines := [FormatHeader(a), FormatHeader(b)];
    var a' := Header(a.name, a.name);
    AsWrittenValueIsName(a);
    AsWrittenStep(lines, [], a');
    assert lines[1..] == [FormatHeader(b)];
    LaterHeaderIgnored(b, a');
  }

  /** Once the list holds a header, a further header line leaves it as is. */
  lemma LaterHeaderIgnored(b: Header, first: Header)
    requires WellFormedHeader(b)
    ensures ParseHeadersAsWritten([FormatHeader(b)], [first]) == Ok([first])
  {
    var line := FormatHeader(b);
    assert line != [] && ParseHeaderLineAsWritten(Chomp(line)) == Ok(Header(b.name, b.name)) by {
      AsWrittenValueIsName(b);
    }
    OneLineAsWritten(line, [first], Header(b.name, b.name));
  }

  /** The written loop over a single header line. */
  lemma OneLineAsWritten(line: string, list: seq<Header>, h: Header)
    requires |list| <= 1 && line != [] && ParseHeaderLineAsWritten(Chomp(line)) == Ok(h)
    ensures ParseHeadersAsWritten([line], list) == Ok(if list == [] then [h] else list)
  {
    AsWrittenStep([line], list, h);
    assert [line][1..] == [];
    LoopEnd(if list == [] then [h] else list, ParseHeaderLineAsWritten);
  }

  lemma HeaderListCounterexample()
    ensures ParseHeadersAsWritten(["A: 1\r\n", "B: 2\r\n"], []) == Ok([Header("A", "A")])
    ensures ParseHeaders(["A: 1\r\n", "B: 2\r\n"]) == Ok([Header("A", "1"), Header("B", "2")])
  {
    var a, b := Header("A", "1"), Header("B", "2");
    assert FormatHeader(a) == "A: 1\r\n";
    assert FormatHeader(b) == "B: 2\r\n";
    SecondHeaderDropped(a, b);
    TwoHeaders(a, b);
  }

  /** The documented loop on one header line and the blank line. */
  lemma OneHeaderThenBlank(h: Header)
    requires WellFormedHeader(h)
    ensures ParseHeaders([FormatHeader(h), "\r\n"]) == Ok([h])
  {
    assert [h][1..] == [];
    assert FormatHeaders([h]) + ["\r\n"] == [FormatHeader(h), "\r\n"];
    HeadersRoundTrip([h], ["\r\n"]);
  }

  /** The documented loop on two header lines. */
  lemma TwoHeaders(a: Header, b: Header)
    requires WellFormedHeader(a) && WellFormedHeader(b)
    ensures ParseHeaders([FormatHeader(a), FormatHeader(b)]) == Ok([a, b])
  {
    assert [a, b][1..] == [b] && [b][1..] == [];
    assert FormatHeaders([b]) == [FormatHeader(b)];
    assert FormatHeaders([a, b]) == [FormatHeader(a)] + [FormatHeader(b)];
    assert FormatHeaders([a, b]) + [] == [FormatHeader(a), FormatHeader(b)];
    HeadersRoundTrip([a, b], []);
  }

  // ---------------------------------------------------------------------
  // Whole request

  /** parse_request: the request line, then the headers, read with the
      corrected header loop `ParseHeaders` (the loop as written is
      `ParseHeadersAsWritten`; see the findings on request.c:276-278 and
      323-329). */
  function ParseRequest(lines: seq<string>): (r: Result<Request, ParseError>)
    ensures r == Err(NoRequestLine) <==> lines == [] || lines[0] == []
    ensures r.Ok? ==> WellFormedLine(RequestLine(r.value.httpMethod, r.value.uri, r.value.query))
    ensures r.Ok? ==> |r.value.headers| < |lines|
  {
    match ParseRequestMethod(if lines == [] then None else Some(lines[0]))
    case Err(e) => Err(e)
    case Ok(rl) =>
      match ParseHeaders(lines[1..])
      case Err(e) => Err(e)
      case Ok(hs) => Ok(Request(rl.httpMethod, rl.uri, rl.query, hs))
  }

  /** The lines a client sends for a request. */
  function FormatRequest(req: Request, version: string): seq<string> {
    [FormatRequestLine(RequestLine(req.httpMethod, req.uri, req.query), version)]
      + FormatHeaders(req.headers) + ["\r\n"]
  }

  /** A well-formed request survives being sent and parsed. */
  lemma RequestRoundTrip(req: Request, version: string, body: seq<string>)
    requires WellFormedLine(RequestLine(req.httpMethod, req.uri, req.query))
    requires forall i :: 0 <= i < |req.headers| ==> WellFormedHeader(req.headers[i])
    ensures ParseRequest(FormatRequest(req, version) + body) == Ok(req)
  {
    var rl := RequestLine(req.httpMethod, req.uri, req.query);
    var lines := FormatRequest(req, version) + body;
    FormatRequestParts(req, version, body);
    RequestLineRoundTrip(rl, version);
    HeadersRoundTrip(req.headers, ["\r\n"] + body);
    ParseRequestStep(lines, rl, req.headers);
  }

  /** The request line is the first line sent; the header lines follow. */
  lemma FormatRequestParts(req: Request, version: string, body: seq<string>)
    ensures (FormatRequest(req, version) + body)[0]
            == FormatRequestLine(RequestLine(req.httpMethod, req.uri, req.query), version)
    ensures (FormatRequest(req, version) + body)[1..] == FormatHeaders(req.headers) + (["\r\n"] + body)
  {
  }

  /** parse_request succeeds when both of its halves do. */
  lemma ParseRequestStep(lines: seq<string>, rl: RequestLine, hs: seq<Header>)
    requires lines != []
    requires ParseRequestMethod(Some(lines[0])) == Ok(rl)
    requires ParseHeaders(lines[1..]) == Ok(hs)
    ensures ParseRequest(lines) == Ok(Request(rl.httpMethod, rl.uri, rl.query, hs))
  {
  }
}

=== FILE: text.dfy ===
/** The C string primitives the server is built on, as functions over
    `string`: strtok(3) as index spans, the `chomp` macro, and the line
    splitting performed by repeated fgets(3) calls. */
module Text {
  import opened Base

  /** The first index at or after `i` whose character is not in `cs`
      (or `|s|` when there is none). */
  function SkipWhile(s: string, i: nat, cs: set<char>): (j: nat)
    requires i <= |s|
    ensures i <= j <= |s|
    ensures forall k :: i <= k < j ==> s[k] in cs
    ensures j < |s| ==> s[j] !in cs
    decreases |s| - i
  {
    if i == |s| || s[i] !in cs then i else SkipWhile(s, i + 1, cs)
  }

  /** The first index at or after `i` whose character is in `cs`
      (or `|s|` when there is none). */
  function SkipUntil(s: string, i: nat, cs: set<char>): (j: nat)
    requires i <= |s|
    ensures i <= j <= |s|
    ensures forall k :: i <= k < j ==> s[k] !in cs
    ensures j < |s| ==> s[j] in cs
    decreases |s| - i
  {
    if i == |s| || s[i] in cs then i else SkipUntil(s, i + 1, cs)
  }

  /** `SkipWhile` is determined by its contract. */
  lemma SkipWhileIs(s: string, i: nat, cs: set<char>, j: nat)
    requires i <= j <= |s|
    requires forall k :: i <= k < j ==> s[k] in cs
    requires j < |s| ==> s[j] !in cs
    ensures SkipWhile(s, i, cs) == j
  {
  }

  /** `SkipUntil` is determined by its contract. */
  lemma SkipUntilIs(s: string, i: nat, cs: set<char>, j: nat)
    requires i <= j <= |s|
    requires forall k :: i <= k < j ==> s[k] !in cs
    requires j < |s| ==> s[j] in cs
    ensures SkipUntil(s, i, cs) == j
  {
  }

  /** `a` is a tail of `b`: what a C pointer advanced into `b` points to. */
  predicate IsSuffix(a: string, b: string) {
    |a| <= |b| && a == b[|b| - |a|..]
  }

  /** A token `s[start..end]` found by strtok. */
  datatype Span = Span(start: nat, end: nat)

  /** strtok(3) scanning `s` from index `i`: leading delimiters are skipped
      and the token is the longest run of non-delimiters that follows.
      None (strtok's NULL) when only delimiters remain. */
  function Strtok(s: string, i: nat, delims: set<char>): (r: Option<Span>)
    requires i <= |s|
    ensures r.None? <==> forall k :: i <= k < |s| ==> s[k] in delims
    ensures r.Some? ==> i <= r.value.start < r.value.end <= |s|
    ensures r.Some? ==> forall k :: i <= k < r.value.start ==> s[k] in delims
    ensures r.Some? ==> forall k :: r.value.start <= k < r.value.end ==> s[k] !in delims
    ensures r.Some? && r.value.end < |s| ==> s[r.value.end] in delims
  {
    var a := SkipWhile(s, i, delims);
    if a == |s| then None else Some(Span(a, SkipUntil(s, a, delims)))
  }

  /** Where the next `strtok(NULL, ...)` resumes after token `t`: one past
      the delimiter that ended it (strtok overwrites that delimiter with NUL),
      or the end of the string when the token ran to the end. */
  function Resume(s: string, t: Span): (r: nat)
    requires t.end <= |s|
    ensures t.end <= r <= |s| && r <= t.end + 1
    ensures r == t.end <==> t.end == |s|
  {
    if t.end < |s| then t.end + 1 else t.end
  }

  /** The text of token `t`. */
  function TokenText(s: string, t: Span): string
    requires t.start <= t.end <= |s|
  {
    s[t.start..t.end]
  }

  /** Strtok finds the token a caller expects: `s[a..b]` is preceded (from
      `i`) only by delimiters, holds none, and is followed by one or by the end. */
  lemma StrtokIs(s: string, i: nat, delims: set<char>, a: nat, b: nat)
    requires i <= a < b <= |s|
    requires forall k :: i <= k < a ==> s[k] in delims
    requires forall k :: a <= k < b ==> s[k] !in delims
    requires b < |s| ==> s[b] in delims
    ensures Strtok(s, i, delims) == Some(Span(a, b))
  {
    SkipWhileIs(s, i, delims, a);
    SkipUntilIs(s, a, delims, b);
  }

  predicate IsLineEnd(c: char) {
    c == '\r' || c == '\n'
  }

  /** The `chomp` macro: strips the line terminator (the trailing run of
      carriage returns and line feeds). */
  function Chomp(s: string): (r: string)
    ensures r <= s
    ensures r == [] || !IsLineEnd(r[|r| - 1])
    ensures forall k :: |r| <= k < |s| ==> IsLineEnd(s[k])
  {
    if |s| > 0 && IsLineEnd(s[|s| - 1]) then Chomp(s[..|s| - 1]) else s
  }

  /** Chomp only ever touches the end of a string: a prefix ending in an
      ordinary character is kept whole. */
  lemma ChompAppend(p: string, s: string)
    requires p != [] && !IsLineEnd(p[|p| - 1])
    ensures Chomp(p + s) == p + Chomp(s)
  {
    var c := Chomp(p + s);
    var d := p + Chomp(s);
    assert c <= p + s;
    assert !IsLineEnd((p + s)[|p| - 1]);
    assert |p| <= |c|;
    assert p <= c;
    // the chomped tail of p + s is the chomped tail of s
    var t := c[|p|..];
    assert c == p + t;
    assert t <= s;
    assert t == [] || !IsLineEnd(t[|t| - 1]);
    assert forall k :: |t| <= k < |s| ==> IsLineEnd(s[k]) by {
      forall k | |t| <= k < |s|
        ensures IsLineEnd(s[k])
      {
        assert (p + s)[|p| + k] == s[k];
      }
    }
    ChompUnique(s, t);
  }

  /** Chomp is determined by its contract. */
  lemma ChompUnique(s: string, t: string)
    requires t <= s
    requires t == [] || !IsLineEnd(t[|t| - 1])
    requires forall k :: |t| <= k < |s| ==> IsLineEnd(s[k])
    ensures Chomp(s) == t
  {
  }

  /** A line without a terminator comes back from chomp unchanged once CRLF
      is added. */
  lemma ChompCrlf(line: string)
    requires line == [] || !IsLineEnd(line[|line| - 1])
    ensures Chomp(line + "\r\n") == line
  {
    ChompUnique(line + "\r\n", line);
  }

  /** Dropping the head of a concatenation whose left part is not empty. */
  lemma DropFirst<T>(p: seq<T>, q: seq<T>)
    requires p != []
    ensures (p + q)[0] == p[0] && (p + q)[1..] == p[1..] + q
  {
  }

  /** The concatenation of a sequence of strings. */
  function Concat(ss: seq<string>): string
  {
    if ss == [] then [] else ss[0] + Concat(ss[1..])
  }

  /** The successive results of fgets(3) on a stream holding `s`: each line
      runs up to and including the next line feed; the last may lack one. */
  function ReadLines(s: string): (lines: seq<string>)
    ensures forall i :: 0 <= i < |lines| ==> lines[i] != []
    ensures forall i :: 0 <= i < |lines| - 1 ==> lines[i][|lines[i]| - 1] == '\n'
    ensures forall i, k :: 0 <= i < |lines| && 0 <= k < |lines[i]| - 1 ==> lines[i][k] != '\n'
    decreases |s|
  {
    if s == [] then []
    else
      var j := SkipUntil(s, 0, {'\n'});
      var n := if j < |s| then j + 1 else j;
      [s[..n]] + ReadLines(s[n..])
  }

  /** Reading a stream line by line loses nothing: the lines put back
      together are the stream. */
  lemma {:induction false} ReadLinesConcat(s: string)
    ensures Concat(ReadLines(s)) == s
    decreases |s|
  {
    if s != [] {
      var n := FirstLine(s);
      ReadLinesConcat(s[n..]);
      ConcatCons(s[..n], ReadLines(s[n..]));
      assert s == s[..n] + s[n..];
    }
  }

  /** The first fgets call on a non-empty stream: its line, and the lines
      of the rest. */
  lemma FirstLine(s: string) returns (n: nat)
    requires s != []
    ensures 0 < n <= |s| && ReadLines(s) == [s[..n]] + ReadLines(s[n..])
  {
    var j := SkipUntil(s, 0, {'\n'});
    n := if j < |s| then j + 1 else j;
  }

  lemma ConcatCons(x: string, rest: seq<string>)
    ensures Concat([x] + rest) == x + Concat(rest)
  {
    assert ([x] + rest)[1..] == rest;
  }

  /** The NUL character, which ends a C string. */
  const Nul := 0 as char

  /** What fputs(3) writes of a buffer: the text before its first NUL. */
  function Fputs(s: string): (r: string)
    ensures r <= s && Nul !in r
    ensures |r| < |s| ==> s[|r|] == Nul
    ensures r == s <==> Nul !in s
  {
    s[..SkipUntil(s, 0, {Nul})]
  }

  /** What a loop of fputs calls writes for successive buffers. */
  function PutLines(lines: seq<string>): string
  {
    if lines == [] then [] else Fputs(lines[0]) + PutLines(lines[1..])
  }

  /** Copying a NUL-free stream line by line with fgets and fputs writes
      the stream exactly. */
  lemma {:induction false} CopyNulFree(s: string)
    requires Nul !in s
    ensures PutLines(ReadLines(s)) == s
    decreases |s|
  {
    if s != [] {
      var n := FirstLine(s);
      assert Nul !in s[n..] && Fputs(s[..n]) == s[..n] by {
        NulFreeParts(s, n);
      }
      PutLinesCons(s[..n], ReadLines(s[n..]));
      CopyNulFree(s[n..]);
      assert s == s[..n] + s[n..];
    }
  }

  /** fgets and fputs copy a stream whole when it holds no NUL. */
  lemma CopyWhenNulFree(s: string)
    ensures Nul !in s ==> PutLines(ReadLines(s)) == s
  {
    if Nul !in s {
      CopyNulFree(s);
    }
  }

  lemma NulFreeParts(s: string, n: nat)
    requires n <= |s| && Nul !in s
    ensures Nul !in s[..n] && Nul !in s[n..]
  {
    assert forall k :: 0 <= k < n ==> s[..n][k] == s[k];
    assert forall k :: n <= k < |s| ==> s[n..][k - n] == s[k];
  }

  lemma PutLinesCons(line: string, rest: seq<string>)
    ensures PutLines([line] + rest) == Fputs(line) + PutLines(rest)
  {
    assert ([line] + rest)[1..] == rest;
  }
}

=== FILE: utils.dfy ===
/** The helpers of utils.c: the status-string table, the whitespace
    skippers, the root-containment check on request paths and the
    `mime.types` lookup. The filesystem is passed in: `realpath` as a
    function from a path to its canonical form (None when it cannot be
    resolved) and the `mime.types` file as its lines (None when it cannot
    be opened). */
module Utils {
  import opened Base
  import opened Text

  // ---------------------------------------------------------------------
  // HTTP status values and their strings

  /** HTTPStatus values, numbered in the order of the status-string table. */
  const StatusOk: nat := 0
  const StatusBadRequest: nat := 1
  const StatusNotFound: nat := 2
  const StatusInternalServerError: nat := 3
  const StatusTeapot: nat := 4

  predicate IsDigit(c: char) {
    '0' <= c <= '9'
  }

  /** `s` starts with a three-digit code followed by a space. */
  predicate HasCodePrefix(s: string) {
    |s| > 4 && IsDigit(s[0]) && IsDigit(s[1]) && IsDigit(s[2]) && s[3] == ' '
  }

  /** The numeric code at the head of a status string. */
  function Code(s: string): nat
    requires HasCodePrefix(s)
  {
    100 * (s[0] as nat - '0' as nat) + 10 * (s[1] as nat - '0' as nat) + (s[2] as nat - '0' as nat)
  }

  /** http_status_string: the status line text of a status, or None (NULL)
      for a status past the end of the table. */
  function HttpStatusString(status: nat): (r: Option<string>)
    ensures r.Some? <==> status < 5
    ensures r.Some? ==> HasCodePrefix(r.value)
  {
    var table := ["200 OK", "400 Bad Request", "404 Not Found",
                  "500 Internal Server Error", "418 I'm A Teapot"];
    if status < 5 then Some(table[status]) else None
  }

  /** Each status of the table carries its HTTP code. */
  lemma StatusCodes()
    ensures Code(HttpStatusString(StatusOk).value) == 200
    ensures Code(HttpStatusString(StatusBadRequest).value) == 400
    ensures Code(HttpStatusString(StatusNotFound).value) == 404
    ensures Code(HttpStatusString(StatusInternalServerError).value) == 500
    ensures Code(HttpStatusString(StatusTeapot).value) == 418
  {
  }

  /** No two statuses share a status string (their codes already differ). */
  lemma StatusStringsDistinct(a: nat, b: nat)
    requires a < 5 && b < 5 && a != b
    ensures HttpStatusString(a) != HttpStatusString(b)
  {
    StatusCodes();
  }

  // ---------------------------------------------------------------------
  // Whitespace skipping

  /** The characters skip_whitespace skips. */
  const Blanks: set<char> := {' ', '\t'}

  /** The WHITESPACE set of the server's header. */
  const Whitespace: set<char> := {' ', '\t', '\n'}

  /** skip_whitespace: advances past spaces and tabs; NULL stays NULL. */
  function SkipWhitespace(s: Option<string>): (r: Option<string>)
    ensures r.None? <==> s.None?
    ensures r.Some? ==> IsSuffix(r.value, s.value)
    ensures r.Some? ==> r.value == [] || r.value[0] !in Blanks
    ensures r.Some? ==> forall k :: 0 <= k < |s.value| - |r.value| ==> s.value[k] in Blanks
  {
    match s
    case None => None
    case Some(t) => Some(t[SkipWhile(t, 0, Blanks)..])
  }

  /** Skipping whitespace twice is skipping it once. */
  lemma SkipWhitespaceIdempotent(s: Option<string>)
    ensures SkipWhitespace(SkipWhitespace(s)) == SkipWhitespace(s)
  {
    if s.Some? {
      var t := SkipWhitespace(s).value;
      SkipWhileIs(t, 0, Blanks, 0);
    }
  }

  /** skip_nonwhitespace as its doc-comment describes it: advances to the
      first WHITESPACE character, or to the end of the string. */
  function SkipNonwhitespace(s: Option<string>): (r: Option<string>)
    ensures r.None? <==> s.None?
    ensures r.Some? ==> IsSuffix(r.value, s.value)
    ensures r.Some? ==> r.value == [] || r.value[0] in Whitespace
    ensures r.Some? ==> forall k :: 0 <= k < |s.value| - |r.value| ==> s.value[k] !in Whitespace
  {
    match s
    case None => None
    case Some(t) => Some(t[SkipUntil(t, 0, Whitespace)..])
  }

  /** skip_nonwhitespace as written: its loop runs while the character IS
      in WHITESPACE, so it skips whitespace instead. Since strchr also finds
      the terminating NUL in WHITESPACE, a string made only of whitespace
      (the empty string included) is read past its end: None stands for
      that overrun. */
  function SkipNonwhitespaceAsWritten(s: string): (r: Option<string>)
    ensures r.None? <==> forall k :: 0 <= k < |s| ==> s[k] in Whitespace
    ensures r.Some? ==> IsSuffix(r.value, s) && r.value != [] && r.value[0] !in Whitespace
    ensures r.Some? ==> forall k :: 0 <= k < |s| - |r.value| ==> s[k] in Whitespace
  {
    var j := SkipWhile(s, 0, Whitespace);
    if j == |s| then None else Some(s[j..])
  }

  /** On an ordinary header line the written loop stays at the start of the
      name, where the documented one reaches the space before the value. */
  lemma SkipNonwhitespaceAsWrittenCounterexample()
    ensures SkipNonwhitespaceAsWritten("Host: x") == Some("Host: x")
    ensures SkipNonwhitespace(Some("Host: x")) == Some(" x")
  {
    SkipWhileIs("Host: x", 0, Whitespace, 0);
    SkipUntilIs("Host: x", 0, Whitespace, 5);
  }

  // ---------------------------------------------------------------------
  // Request path resolution

  /** determine_request_path: canonicalises the URI and the root with
      `realpath`; the URI's canonical path is returned only when the
      canonical root is a textual prefix of it. The URI is canonicalised as
      given (the join with the root is commented out in the source). */
  function DetermineRequestPath(uri: string, root: string, realpath: string -> Option<string>): (r: Option<string>)
    ensures r.Some? <==> realpath(uri).Some? && realpath(root).Some? && realpath(root).value <= realpath(uri).value
    ensures r.Some? ==> r == realpath(uri) && realpath(root).value <= r.value
  {
    match realpath(uri)
    case None => None
    case Some(canonical) =>
      match realpath(root)
      case None => None
      case Some(canonicalRoot) => if canonicalRoot <= canonical then Some(canonical) else None
  }

  /** A path that escapes the root is refused, whatever the URI looked like. */
  lemma TraversalRefused(uri: string, realpath: string -> Option<string>)
    requires realpath("/srv/www") == Some("/srv/www")
    requires realpath(uri) == Some("/etc/passwd")
    ensures DetermineRequestPath(uri, "/srv/www", realpath).None?
  {
    assert "/srv/www"[1] != "/etc/passwd"[1];
  }

  /** The containment check compares characters, not path components: a
      sibling directory whose name extends the root's passes it. */
  lemma SiblingDirectoryPasses(uri: string, realpath: string -> Option<string>)
    requires realpath("/srv/www") == Some("/srv/www")
    requires realpath(uri) == Some("/srv/www2/secret")
    ensures DetermineRequestPath(uri, "/srv/www", realpath) == Some("/srv/www2/secret")
  {
    assert "/srv/www2/secret"[..8] == "/srv/www";
  }

  // ---------------------------------------------------------------------
  // Mimetype lookup

  /** The delimiters of the first strtok on a `mime.types` line, " \t\r\n\v". */
  const MimeTypeDelims: set<char> := {' ', '\t', '\r', '\n', 11 as char}

  /** The delimiters of the later strtok calls, " \r\n" (no tab). */
  const ExtensionDelims: set<char> := {' ', '\r', '\n'}

  /** The extension of a path: the text after its first '.', None when it has none. */
  function Extension(path: string): (r: Option<string>)
    ensures r.None? <==> '.' !in path
    ensures r.Some? ==> |r.value| < |path| && path[|path| - |r.value| - 1] == '.'
    ensures r.Some? ==> IsSuffix(r.value, path) && '.' !in path[..|path| - |r.value| - 1]
  {
    var d := SkipUntil(path, 0, {'.'});
    if d == |path| then None else Some(path[d + 1..])
  }

  /** The extension tokens of the rest of a `mime.types` line, as the
      inner strtok loop visits them, each with leading blanks skipped. */
  function ExtensionTokens(rest: string): seq<string>
    decreases |rest|
  {
    match Strtok(rest, 0, ExtensionDelims)
    case None => []
    case Some(t) => [SkipWhitespace(Some(TokenText(rest, t))).value] + ExtensionTokens(rest[Resume(rest, t)..])
  }

  /** The text after the first token of a line and the delimiter ending it:
      where the inner loop starts. */
  function AfterFirst(line: string, t: Span): string
    requires t.end <= |line|
  {
    line[Resume(line, t)..]
  }

  /** The mimetype a `mime.types` line gives to extension `ext`: the line's
      first token, when one of the later tokens equals `ext`. */
  function LineMatch(line: string, ext: string): (r: Option<string>)
    ensures r.Some? <==> Strtok(line, 0, MimeTypeDelims).Some?
                         && ext in ExtensionTokens(AfterFirst(line, Strtok(line, 0, MimeTypeDelims).value))
    ensures r.Some? ==> r.value == TokenText(line, Strtok(line, 0, MimeTypeDelims).value)
    ensures r.Some? ==> r.value != [] && forall k :: 0 <= k < |r.value| ==> r.value[k] !in MimeTypeDelims
  {
    match Strtok(line, 0, MimeTypeDelims)
    case None => None
    case Some(t) =>
      if ext in ExtensionTokens(AfterFirst(line, t)) then Some(TokenText(line, t)) else None
  }

  /** The first result `m` gives for the lines, in order; None when it
      gives none. */
  function FirstSome(lines: seq<string>, m: string -> Option<string>): (r: Option<string>)
    ensures r.None? <==> forall i :: 0 <= i < |lines| ==> m(lines[i]).None?
    ensures r.Some? ==> exists i :: 0 <= i < |lines| && m(lines[i]) == r
                                    && forall j :: 0 <= j < i ==> m(lines[j]).None?
  {
    if lines == [] then None
    else if m(lines[0]).Some? then m(lines[0])
    else
      var r := FirstSome(lines[1..], m);
      assert forall i :: 1 <= i < |lines| ==> lines[i] == lines[1..][i - 1];
      assert r.Some? ==> exists i :: 1 <= i < |lines| && m(lines[i]) == r
                                      && forall j :: 0 <= j < i ==> m(lines[j]).None?;
      r
  }

  /** The first matching line's mimetype; None when no line matches. */
  function LookupExtension(lines: seq<string>, ext: string): (r: Option<string>)
    ensures r.None? <==> forall i :: 0 <= i < |lines| ==> LineMatch(lines[i], ext).None?
    ensures r.Some? ==> exists i :: 0 <= i < |lines| && LineMatch(lines[i], ext) == r
                                    && forall j :: 0 <= j < i ==> LineMatch(lines[j], ext).None?
  {
    FirstSome(lines, line => LineMatch(line, ext))
  }

  /** First match wins across a split of the table. */
  lemma {:induction false} LookupAppend(a: seq<string>, b: seq<string>, ext: string)
    ensures LookupExtension(a + b, ext)
         == if LookupExtension(a, ext).Some? then LookupExtension(a, ext) else LookupExtension(b, ext)
    decreases |a|
  {
    if a == [] {
      assert a + b == b;
    } else {
      assert (a + b)[0] == a[0];
      assert (a + b)[1..] == a[1..] + b;
      LookupAppend(a[1..], b, ext);
    }
  }

  /** Extensions separated by single spaces. */
  function Joined(exts: seq<string>): string {
    if exts == [] then [] else exts[0] + Spaced(exts[1..])
  }

  /** Each extension preceded by a space. */
  function Spaced(exts: seq<string>): string {
    if exts == [] then [] else " " + exts[0] + Spaced(exts[1..])
  }

  /** An extension as a rule can list it: not empty, not starting with a
      blank, holding no delimiter. */
  predicate ListableExtension(ext: string) {
    ext != [] && ext[0] !in Blanks && forall k :: 0 <= k < |ext| ==> ext[k] !in ExtensionDelims
  }

  /** One step of the inner strtok loop: a listable extension at the start
      of the rest of the line, ended by a delimiter, is the next token. */
  lemma ExtensionTokensCons(rest: string, e: string)
    requires ListableExtension(e) && |e| < |rest| && rest[..|e|] == e
    requires rest[|e|] in ExtensionDelims
    ensures ExtensionTokens(rest) == [e] + ExtensionTokens(rest[|e| + 1..])
  {
    assert forall k :: 0 <= k < |e| ==> rest[k] == e[k];
    StrtokIs(rest, 0, ExtensionDelims, 0, |e|);
    SkipWhileIs(e, 0, Blanks, 0);
    assert e[0..] == e;
    assert TokenText(rest, Span(0, |e|)) == e;
  }

  /** The rest of a rule after its first extension and the space or line
      feed that ends it. */
  lemma JoinedHead(exts: seq<string>)
    requires exts != []
    ensures var s := Joined(exts) + "\n";
            && |exts[0]| < |s| && s[..|exts[0]|] == exts[0]
            && (s[|exts[0]|] == ' ' || s[|exts[0]|] == '\n')
            && (exts[1..] == [] ==> s[|exts[0]| + 1..] == [])
            && (exts[1..] != [] ==> s[|exts[0]| + 1..] == Joined(exts[1..]) + "\n")
  {
    var e := exts[0];
    var s := Joined(exts) + "\n";
    assert s == e + (Spaced(exts[1..]) + "\n");
    assert s[|e|..] == Spaced(exts[1..]) + "\n";
    if exts[1..] != [] {
      assert Spaced(exts[1..]) == " " + Joined(exts[1..]);
    }
  }

  /** An empty rest of a line, or a lone line feed, holds no extension. */
  lemma NoExtensionTokens(rest: string)
    requires rest == [] || rest == "\n"
    ensures ExtensionTokens(rest) == []
  {
    assert forall k :: 0 <= k < |rest| ==> rest[k] in ExtensionDelims;
  }

  /** Every extension of a list can be listed in a rule. */
  predicate AllListable(exts: seq<string>) {
    exts == [] || (ListableExtension(exts[0]) && AllListable(exts[1..]))
  }

  lemma {:induction false} AllListableOf(exts: seq<string>)
    requires forall k :: 0 <= k < |exts| ==> ListableExtension(exts[k])
    ensures AllListable(exts)
  {
    if exts != [] {
      assert forall k :: 0 <= k < |exts[1..]| ==> exts[1..][k] == exts[k + 1];
      AllListableOf(exts[1..]);
    }
  }

  /** The inner strtok loop visits exactly the extensions of a rule, in
      order: each strtok call starts just past the separator that ended the
      previous token. */
  lemma {:induction false} ExtensionTokensOf(exts: seq<string>)
    requires AllListable(exts)
    ensures ExtensionTokens(Joined(exts) + "\n") == exts
    decreases |exts|
  {
    if exts == [] {
      NoExtensionTokens("\n");
    } else {
      var tail := FirstExtension(exts);
      if exts[1..] == [] {
        NoExtensionTokens(tail);
      } else {
        ExtensionTokensOf(exts[1..]);
      }
      assert [exts[0]] + exts[1..] == exts;
    }
  }

  /** The first step of the inner loop over a rule's extensions: the first
      extension, and the rest of the rule after it. */
  lemma FirstExtension(exts: seq<string>) returns (tail: string)
    requires exts != [] && ListableExtension(exts[0])
    ensures ExtensionTokens(Joined(exts) + "\n") == [exts[0]] + ExtensionTokens(tail)
    ensures exts[1..] == [] ==> tail == []
    ensures exts[1..] != [] ==> tail == Joined(exts[1..]) + "\n"
  {
    var rest := Joined(exts) + "\n";
    var e := exts[0];
    assert |e| < |rest| && rest[..|e|] == e && rest[|e|] in ExtensionDelims
        && (exts[1..] == [] ==> rest[|e| + 1..] == [])
        && (exts[1..] != [] ==> rest[|e| + 1..] == Joined(exts[1..]) + "\n") by {
      JoinedHead(exts);
    }
    ExtensionTokensCons(rest, e);
    tail := rest[|e| + 1..];
  }

  /** A rule `MIMETYPE<SEP>EXT1 EXT2 ...` gives each listed extension that
      mimetype and matches no other extension. */
  lemma MimeRuleMatches(mime: string, sep: char, exts: seq<string>, ext: string)
    requires mime != [] && forall k :: 0 <= k < |mime| ==> mime[k] !in MimeTypeDelims
    requires sep in MimeTypeDelims
    requires forall k :: 0 <= k < |exts| ==> ListableExtension(exts[k])
    ensures LineMatch(mime + [sep] + Joined(exts) + "\n", ext) == if ext in exts then Some(mime) else None
  {
    var line := mime + [sep] + Joined(exts) + "\n";
    var n := |mime|;
    assert forall k :: 0 <= k < n ==> line[k] == mime[k];
    assert line[n] == sep;
    StrtokIs(line, 0, MimeTypeDelims, 0, n);
    assert TokenText(line, Span(0, n)) == mime;
    assert AfterFirst(line, Span(0, n)) == Joined(exts) + "\n";
    AllListableOf(exts);
    ExtensionTokensOf(exts);
  }

  /** The first token of a line is the mimetype and is never compared: a
      line holding a single token matches no extension, its own text included. */
  lemma FirstTokenNeverCompared(mime: string, ext: string)
    requires mime != [] && forall k :: 0 <= k < |mime| ==> mime[k] !in MimeTypeDelims
    ensures LineMatch(mime + "\n", ext).None?
  {
    var line := mime + "\n";
    StrtokIs(line, 0, MimeTypeDelims, 0, |mime|);
    assert AfterFirst(line, Span(0, |mime|)) == [];
    NoExtensionTokens([]);
  }

  /** determine_mimetype as its doc-comment describes it: the first rule
      listing the extension decides; with no extension or no matching rule
      the default mimetype is used. A table that cannot be opened (where the
      source reads from a NULL stream) is a lookup failure. */
  function DetermineMimetype(path: string, table: Option<seq<string>>, default: string): (r: Option<string>)
    ensures r.None? <==> table.None?
    ensures table.Some? && '.' !in path ==> r == Some(default)
    ensures table.Some? && Extension(path).Some?
            && (forall i :: 0 <= i < |table.value| ==> LineMatch(table.value[i], Extension(path).value).None?)
            ==> r == Some(default)
    ensures table.Some? && Extension(path).Some? && LookupExtension(table.value, Extension(path).value).Some?
            ==> r == LookupExtension(table.value, Extension(path).value)
    ensures table.Some? && Extension(path).Some? && r != Some(default)
            ==> exists i :: 0 <= i < |table.value| && LineMatch(table.value[i], Extension(path).value) == r
  {
    match table
    case None => None
    case Some(lines) =>
      match Extension(path)
      case None => Some(default)
      case Some(ext) =>
        match LookupExtension(lines, ext)
        case None => Some(default)
        case Some(m) => Some(m)
  }

  /** determine_mimetype as written: after a scan without a match it copies
      the default mimetype but returns NULL (None). Defined only for paths
      with a '.', since without one the source steps past a NULL pointer. */
  function DetermineMimetypeAsWritten(path: string, lines: seq<string>): (r: Option<string>)
    requires '.' in path
    ensures r.None? <==> forall i :: 0 <= i < |lines| ==> LineMatch(lines[i], Extension(path).value).None?
    ensures r.Some? ==> forall d :: r == DetermineMimetype(path, Some(lines), d)
  {
    LookupExtension(lines, Extension(path).value)
  }

  /** An extension missing from the table gets NULL as written, and the
      default mimetype as documented. */
  lemma DetermineMimetypeCounterexample()
    ensures DetermineMimetypeAsWritten("index.zzz", []) == None
    ensures DetermineMimetype("index.zzz", Some([]), "text/plain") == Some("text/plain")
  {
    SkipUntilIs("index.zzz", 0, {'.'}, 5);
  }
}
